=== FILE: README.md ===
# Crimson Desert pre-order tracker — verified model

The tracker follows the pre-order standing of the game *Crimson Desert*. It has five parts:

- **Amazon scraper.** Reads eighteen regional Amazon product pages: the best-sellers rank, the console-category rank, the price and the stock flag. Every run's rows are appended to `rankings.csv`, and the last run is kept in `latest.json`.
- **SteamSpy monitor.** Turns the `owners` estimate into a wishlist count and stores it as a metric.
- **Ranking-graph script.** Restructures per-country ranking history into per-country series, and picks the five largest recent rank changes for a notification.
- **Sample generator.** Writes thirty-one days of synthetic rows plus a latest-per-store snapshot.
- **Visualizer.** Aggregates stored metrics into a summary report and into daily and cumulative YouTube view series.

This project models those five parts in Dafny and proves what each part promises about its outputs.

One module per part:

| module (file) | models |
|---|---|
| `Scraper` (`scraper.dfy`) | `scrape`, `save`, `run` of `scripts/scraper.py` |
| `Records` (`records.dfy`) | the 13-field ranking record, the CSV log and the `latest.json` snapshot, and the data directory as a class whose `Save` appends to the log and overwrites the snapshot |
| `Tracker` (`tracker.dfy`) | the `owners` triage of `get_wishlist_count`, the metrics table (`MetricsDb`, a class whose rows are appended to) and the save guard of `collect_steam_metrics` |
| `PlotRankings` (`plot_rankings.dfy`) | `parse_data`, the top-changes selection and the file-name sanitiser |
| `SampleData`, `SampleRows`, `SampleLatest`, `SampleSnapshot` (`generate_sample.dfy`) | `gen`, its row-count and bounds, the `latest_by_store` loop and the snapshot |
| `Visualizer` (`visualizer.dfy`) | the integer aggregates of `generate_summary_report`, the daily group-by-date sum and the cumulative sum |
| `Text`, `Ordering`, `Seqs`, `Optional` | shared helpers: the Python string operations used (`lower`, `replace`, `strip`, `rstrip`, `split`, `int()`), string order, sorting, sequence lemmas and an option type |

How the models are shaped:

- **Fetching is an input.** A fetch is a value: either a response (status and page) or a raised exception message.
- **The HTML tree is plain data.** A page holds:
  - the captioned elements, each with the container that follows it;
  - the container's text and links, each link with the nearest preceding `#n` text;
  - the first span per price selector;
  - the availability block.
- **Loops stay loops.** Loops that mutate a record, a dictionary or a list are methods, each proved equal to a specification function. Those functions carry the properties.

## Model

| member | source | states |
|---|---|---|
| Scraper.FormatUrlSubstitutes | scripts/scraper.py:61 | a template `prefix{asin}suffix` with brace-free prefix and suffix becomes `prefix + asin + suffix` |
| Scraper.FormatUrlNoField | scripts/scraper.py:61 | a template without any brace is left as it is |
| Scraper.ScrapeOutcome | scripts/scraper.py:60-66 | every record carries the run time, copies key, label, region, ASIN, console category and currency from the target, and its url is the template with the ASIN substituted |
| Scraper.PlaceholderSkipsFetch | scripts/scraper.py:68-71 | for a `PLACEHOLDER…` ASIN the outcome does not depend on the fetch, carries the error "ASIN not configured", and leaves both ranks, price and stock empty |
| Scraper.FetchFailureOutcome | scripts/scraper.py:73-121 | a raised fetch or a 4xx/5xx status gives error `str(e)` or `HTTP <status>` with every scraped field still empty |
| Scraper.FindLabel | scripts/scraper.py:81 | the result is the first element whose text contains the keyword, and none means no element contains it |
| Scraper.FindBsr | scripts/scraper.py:79-83 | keywords are tried in list order: the result is the first hit of the first keyword with any hit, none when no keyword hits |
| Scraper.LocateBsr | scripts/scraper.py:79-83 | the `for kw … break` loop returns exactly the first-keyword-first-element result |
| Scraper.MatchAt | scripts/scraper.py:89 | a match of `#\s*[\d,]+` at the start gives a rank token and a consumed length within the text |
| Scraper.MatchAtSpan | scripts/scraper.py:89 | a match's token is the maximal digit-and-comma run after `#` and optional whitespace; a `#`, whitespace, then a digit or comma always matches |
| Scraper.RankTokens | scripts/scraper.py:89 | every token `findall` yields is a rank token (digits and commas, at least one) |
| Scraper.RankTokensEmpty | scripts/scraper.py:89 | `findall` yields nothing exactly when no offset of the text starts a match |
| Scraper.RankTokensSkipPrefix | scripts/scraper.py:89 | offsets before the first match contribute no token |
| Scraper.RankTokensLeftmost | scripts/scraper.py:89 | the first token is the match at the leftmost matching offset, and scanning resumes after that match |
| Scraper.RankTokensSkip | scripts/scraper.py:89 | a non-matching offset is passed over |
| Scraper.RankTokensTake | scripts/scraper.py:89 | a match is recorded and scanning resumes at its end |
| Scraper.TokensSkipText | scripts/scraper.py:89 | text without `#` yields no token |
| Scraper.TokenAtHash | scripts/scraper.py:89 | `#` with a maximal digit-and-comma run is exactly one token, then the rest is scanned |
| Scraper.TwoRankTokens | scripts/scraper.py:89 | two `#` tokens separated by `#`-free text give exactly those two tokens, in order |
| Scraper.RankTokensExample | scripts/scraper.py:89 | `#1,234 in Video Games (#56 in PC)` gives `["1,234", "56"]` |
| Scraper.SearchRankIsLeftmost | scripts/scraper.py:98 | `re.search` returns the token at the leftmost matching position, and none when no position matches |
| Scraper.FirstTokenIsSearch | scripts/scraper.py:89-98 | `findall` is non-empty exactly when `search` matches, and its first token is the searched one |
| Scraper.TokenValueDefined | scripts/scraper.py:91 | a token's comma-free value exists iff it holds a digit and is then non-negative; otherwise it is empty and `int('')` raises |
| Scraper.OverallRankFromFirstToken | scripts/scraper.py:85-91 | `rank_overall` is the value of the first token, stays None without tokens, and a comma-only token raises, leaving every scraped field empty |
| Scraper.OverallStepOutcome | scripts/scraper.py:89-91 | the same three cases for the overall-rank step on its own |
| Scraper.FindConsoleLink | scripts/scraper.py:94-101 | the examined link is the first whose lower-cased text contains a category word; none matches otherwise |
| Scraper.LocateConsoleLink | scripts/scraper.py:94-101 | the link loop stops at exactly that first matching link |
| Scraper.ConsoleStepSetsRank | scripts/scraper.py:93-100 | the console rank is set exactly when the first matching link's preceding text has a readable first `#n`, and then it is that `n` |
| Scraper.ConsoleRankFromFirstMatchingLink | scripts/scraper.py:85-101 | in a whole scrape, a console rank comes from the rank container's first matching link, and a readable `#n` there is always recorded once the overall step did not raise |
| Scraper.ConsoleErrorKeepsOverallRank | scripts/scraper.py:91-121 | an exception in the console step keeps the overall rank already filled and leaves the console rank untouched |
| Scraper.FirstPrice | scripts/scraper.py:104-106 | the price text comes from the first selector present in the fixed order; none means no selector is present |
| Scraper.LocatePrice | scripts/scraper.py:104-108 | the selector loop stops at that first present selector |
| Scraper.NormalisePrice | scripts/scraper.py:107 | the normalised price is the comma-free text with only its trailing dots removed: no comma, no final dot, and a prefix of the comma-free text followed only by dots |
| Scraper.NormalisePriceIdempotent | scripts/scraper.py:107 | normalising a normalised price changes nothing |
| Scraper.StockFlag | scripts/scraper.py:111-114 | no availability block gives None; otherwise true iff the lower-cased text contains some stock keyword |
| Scraper.PriceAndStockOutcome | scripts/scraper.py:104-114 | in an error-free scrape, price and stock are exactly those two rules applied to the page |
| Scraper.OverallStep | scripts/scraper.py:88-91 | the overall-rank step changes no field but `rank_overall` |
| Scraper.ConsoleStep | scripts/scraper.py:93-101 | the console step changes no field but `rank_console` |
| Scraper.RanksStep | scripts/scraper.py:85-101 | the rank steps change no field but the two ranks |
| Scraper.PriceAndStock | scripts/scraper.py:103-114 | the price and stock steps change no field but those two |
| Scraper.FromPage | scripts/scraper.py:78-121 | parsing a page changes only the ranks, price, stock and error |
| Scraper.ReadOverall | scripts/scraper.py:88-91 | the imperative overall-rank step equals its specification |
| Scraper.ReadConsole | scripts/scraper.py:93-101 | the imperative console step equals its specification |
| Scraper.ReadRanks | scripts/scraper.py:85-101 | the rank steps in sequence, stopping at an exception, equal their specification |
| Scraper.ReadPage | scripts/scraper.py:78-121 | the field-by-field mutation of the record equals its specification, error capture included |
| Scraper.Scrape | scripts/scraper.py:59-123 | `scrape` returns exactly the specified record |
| Scraper.Run | scripts/scraper.py:139-146 | one record per target in target order, then the log gains exactly those rows and the snapshot holds exactly them |
| Records.RowsOf | scripts/scraper.py:133 | one CSV row per record, in order |
| Records.DataRowsConcat | scripts/scraper.py:129-133 | the data rows of two concatenated log parts are the two parts' data rows |
| Records.DataRowsOfRows | scripts/scraper.py:133 | reading back the written rows gives the records |
| Records.AppendedExtendsLog | scripts/scraper.py:127-133 | appending keeps the log well formed (one header, first), keeps the old file as a prefix, and adds exactly the new records |
| Records.LogHoldsEveryRun | scripts/scraper.py:126-135 | after any series of runs from no file, the log holds one header and every run's records, in run order |
| Records.DataDir.Save | scripts/scraper.py:126-135 | `save` appends the rows (the header only when the file is new) and replaces the snapshot by `{updated_at, results}` |
| Records.DataDir.Overwrite | scripts/generate_sample.py:63-76 | writing the sample replaces the log by one header and the rows, and the snapshot by the given results |
| Text.Lower | scripts/scraper.py:113 | ASCII lower-casing, character by character, leaves no capital |
| Text.RemoveChar | tracker.py:118 | `replace(c, "")` leaves no `c` and every other character |
| Text.RemoveCharConcat | tracker.py:118 | removal distributes over concatenation |
| Text.Strip | tracker.py:118-127 | `strip()` keeps every non-space character, and ends on no space at either side |
| Text.StripPadded | tracker.py:118 | stripping a padded non-blank text gives the text |
| Text.Words | scripts/scraper.py:93 | `split()` yields only non-empty space-free words |
| Text.ParseDigits | tracker.py:118 | a digit string is readable exactly when non-empty and all digits |
| Text.ParseInt | tracker.py:118-127 | `int()` of a plain digit string is its value; a successful read needs a digit and only digits, spaces and signs |
| Text.NatToStringRoundTrip | visualizer.py:247 | reading back the decimal text of a number gives that number |
| Text.StrayCharNoInt | tracker.py:117-120 | a character outside digits, spaces and signs makes `int()` fail |
| Ordering.StrLessTransitive | plot_rankings.py:32 | the order `sorted` uses on strings is transitive |
| Ordering.StrLessTotal | plot_rankings.py:32 | and total |
| Ordering.SortedStrings | plot_rankings.py:32 | `sorted(list(countries))` is strictly increasing and holds exactly the set |
| Ordering.SortAscending | plot_rankings.py:53 | `sorted(dates)` is ascending and a permutation of its input |
| Tracker.FloorMidpoint | tracker.py:129 | `(low + high) // 2` is the floor of the mean |
| Tracker.NormaliseOwners | tracker.py:112-136 | an int is returned unchanged; a value whose text reads as a whole integer gives that integer; a non-zero result comes only from an int, a whole reading or a string range, so anything else gives 0 |
| Tracker.GetWishlistCount | tracker.py:93-140 | a failed call, non-200 status or non-object body gives 0, a missing `owners` counts as 0, and otherwise the count is the normalised owners |
| Tracker.NumericStringOwners | tracker.py:116-118 | a digit string with commas and surrounding spaces gives its comma-free value |
| Tracker.RangeOwners | tracker.py:122-131 | `"low .. high"` gives the floor midpoint of the two bounds |
| Tracker.RangeReadingOf | tracker.py:123-129 | the range reading of such a string is that midpoint |
| Tracker.DocumentedRangeExample | tracker.py:97-131 | `"0 .. 20,000"` gives 10000 |
| Tracker.UnreadableRangeIsZero | tracker.py:132-136 | a range with an unreadable side gives 0 |
| Tracker.ThreePartRangeIsZero | tracker.py:125-136 | a string with two `..` separators fails to unpack and gives 0 |
| Tracker.NoDigitOwnersIsZero | tracker.py:116-136 | a non-int owners value without a digit gives 0 |
| Tracker.FloatOwnersIsZero | tracker.py:116-136 | a non-string JSON value with a dot, such as the float `15000.0`, makes `int()` raise and gives 0 |
| Tracker.DottedStringOwnersIsZero | tracker.py:116-136 | a string with a dot but no `..` is neither whole nor a range and gives 0 |
| Tracker.DotBlocksInteger | tracker.py:117-120 | text containing a dot is never a whole integer |
| Tracker.SplitRange | tracker.py:125 | `split("..")` of `low..high` is `[low, high]` |
| Tracker.SteamMetric | tracker.py:160-169 | the saved metric carries platform "Steam", type "wishlist", the count and the time |
| Tracker.MetricsDb.SaveMetric | tracker.py:66-82 | exactly one row, the metric, is appended, and existing rows are unchanged |
| Tracker.Monitor.CollectSteamMetrics | tracker.py:152-174 | returns `{"wishlist_count": count}` always; saves one Steam metric exactly when the count is non-negative |
| PlotRankings.AllCountries | plot_rankings.py:24-29 | the country set is the union of every entry's keys |
| PlotRankings.Timestamps | plot_rankings.py:25-30 | one date per entry, in entry order |
| PlotRankings.Positions | plot_rankings.py:45-49 | the entries holding a country, each once, in entry order |
| PlotRankings.SeriesFollowsEntries | plot_rankings.py:45-51 | a country's dates, standard and deluxe lists are parallel and list the entries holding it, in order |
| PlotRankings.CountryHasPoint | plot_rankings.py:29-49 | every listed country has at least one date |
| PlotRankings.ParseData | plot_rankings.py:22-53 | sorted duplicate-free countries equal to the key union, one series per country as specified, and the dates sorted |
| PlotRankings.ScanEntries | plot_rankings.py:24-30 | the first loop collects exactly the key union and the dates in entry order |
| PlotRankings.FillSeries | plot_rankings.py:34-51 | the second loop fills exactly each country's series |
| PlotRankings.AddEntry | plot_rankings.py:46-51 | one entry extends exactly the series of the countries it holds |
| PlotRankings.ChangeOf | plot_rankings.py:158-159 | change is the non-negative `abs(last − second-last)`, with the last rank |
| PlotRankings.Candidates | plot_rankings.py:155-159 | exactly the countries with at least two standard values contribute a candidate |
| PlotRankings.SortByChange | plot_rankings.py:161 | the sort is descending by change and a permutation |
| PlotRankings.SortIsStable | plot_rankings.py:161 | candidates with equal change keep their order |
| PlotRankings.TopChanges | plot_rankings.py:155-162 | the selection is the first `min(5, n)` of the sorted candidates |
| PlotRankings.TopChangesAreLargest | plot_rankings.py:161-162 | at most five, descending, all candidates, none smaller than a candidate left out |
| PlotRankings.SafeCountry | plot_rankings.py:85 | `/` and `\` become `_`, nothing else changes, and neither remains |
| SampleData.DayCount | scripts/generate_sample.py:38 | `range(days + 1)` has `days + 1` days |
| SampleData.LaunchBoost | scripts/generate_sample.py:41 | the boost is at least 1 and counts the days left to launch |
| SampleData.BaseOverall | scripts/generate_sample.py:43 | with in-range draws the base rank lies between the boost and `8·boost + 20` |
| SampleData.BaseConsole | scripts/generate_sample.py:44 | the console rank is at least 1 and is a quarter of the overall rank plus the jitter, unless clamped to 1 |
| SampleData.SampleRow | scripts/generate_sample.py:45-59 | a row copies the store's fields, has both ranks at least 1, is in stock and has no error |
| SampleData.RankFollowsBoost | scripts/generate_sample.py:41-52 | the overall rank of a row lies between the boost and `8·boost + 20` |
| SampleData.DayRows | scripts/generate_sample.py:42-59 | one row per store, in store order |
| SampleData.Gen | scripts/generate_sample.py:35-60 | the nested loops produce the rows of every day in order |
| SampleData.AppendDay | scripts/generate_sample.py:42-59 | the inner loop appends that day's rows |
| SampleData.OffsetIsProduct | scripts/generate_sample.py:38-42 | the rows of the first `i` days number `i · |stores|` |
| SampleRows.GenRowCount | scripts/generate_sample.py:38-42 | `gen` yields `(days + 1) · |stores|` rows |
| SampleRows.GenRowAt | scripts/generate_sample.py:38-59 | row `i · |stores| + k` is store `k`'s row of day `i` |
| SampleRows.GenRowsWellFormed | scripts/generate_sample.py:52-58 | every generated row has both ranks at least 1, in stock, no error |
| SampleRows.AllRowsSampled | scripts/generate_sample.py:42-59 | every generated row is some store's row of some day |
| SampleLatest.FirstKeys | scripts/generate_sample.py:70-72 | the dictionary's keys are the distinct stores, each once |
| SampleLatest.LastIndex | scripts/generate_sample.py:71-72 | the position of a store's last row, with no later row of that store |
| SampleLatest.LastRows | scripts/generate_sample.py:76 | the values listed in key order are each key's last row |
| SampleLatest.IndexByStore | scripts/generate_sample.py:70-72 | the overwriting loop leaves exactly one entry per store, the last row of that store, with keys in first-appearance order |
| SampleLatest.LatestByStore | scripts/generate_sample.py:70-76 | `list(latest_by_store.values())` is each store's last row in first-appearance order |
| SampleLatest.FirstKeysAppendKnown | scripts/generate_sample.py:71-72 | rows of known stores add no key |
| SampleLatest.LastRowAppend | scripts/generate_sample.py:71-72 | a later row of a store replaces its earlier one |
| SampleSnapshot.FirstKeysOfPrefix | scripts/generate_sample.py:70-72 | with distinct store keys, the snapshot's keys are the stores in table order |
| SampleSnapshot.LastRowIsFinalDay | scripts/generate_sample.py:70-72 | each store's latest row is its row of the final day |
| SampleSnapshot.LatestIsFinalDay | scripts/generate_sample.py:70-76 | the snapshot results are exactly the final day's rows, in store order |
| SampleSnapshot.StoresDistinct | scripts/generate_sample.py:11-30 | the configured store keys are pairwise distinct |
| SampleSnapshot.SampleLatestIsFinalDay | scripts/generate_sample.py:70-76 | with the configured stores, the snapshot results are the final day's rows |
| SampleSnapshot.GenerateSample | scripts/generate_sample.py:63-76 | the CSV is one header plus all generated rows; the snapshot is the latest per store, which is the final day's rows |
| Visualizer.Select | visualizer.py:253 | the filter keeps only matching rows and never grows |
| Visualizer.SelectMembers | visualizer.py:253 | a row is kept iff it is a matching input row |
| Visualizer.SelectNonEmpty | visualizer.py:254 | the filter is non-empty iff some row matches |
| Visualizer.SelectFirst | visualizer.py:257 | `iloc[0]` is the first matching row |
| Visualizer.SelectLast | visualizer.py:255 | `iloc[-1]` is the last matching row |
| Visualizer.SumOfValues | visualizer.py:273 | the column sum equals the sum of the row values |
| Visualizer.SteamSummaryOf | visualizer.py:255-268 | current is the last value and equals first plus growth (growth 0 for one row); the rate is 0 for one row or a non-positive first value, and otherwise has growth's sign |
| Visualizer.Percent | visualizer.py:259 | `growth / prev * 100` times `prev` is `100 · growth`, with growth's sign |
| Visualizer.StepsTelescope | visualizer.py:258 | the day-to-day changes sum to last minus first |
| Visualizer.SteamGrowthIsSumOfChanges | visualizer.py:256-258 | Steam growth is the sum of its successive changes |
| Visualizer.TruncDiv | visualizer.py:274-278 | `int(mean)` truncates toward zero |
| Visualizer.YouTubeSummaryOf | visualizer.py:273-279 | total views is the sum, videos tracked the row count, and the average its truncated mean |
| Visualizer.MetaGet | visualizer.py:293-294 | `meta.get(key, 0)` is 0 for a missing key |
| Visualizer.MetaSumMissingKey | visualizer.py:290-294 | rows without metadata or without the key contribute 0 |
| Visualizer.MetaSumBounds | visualizer.py:290-294 | with non-negative counts the total bounds each row's count |
| Visualizer.MetadataTotals | visualizer.py:288-313 | the accumulator loop computes both metadata totals |
| Visualizer.SummaryReport | visualizer.py:246-250 | the report carries `Last <days> days` and the generation time |
| Visualizer.GenerateSummaryReport | visualizer.py:242-321 | the step-by-step report equals its specification |
| Visualizer.ReportPlatforms | visualizer.py:253-319 | each platform appears iff some row of its platform and metric type exists |
| Visualizer.ReportSteam | visualizer.py:253-258 | the current wishlist is the last Steam row's value and growth is measured from the first |
| Visualizer.ReportYouTube | visualizer.py:271-279 | videos tracked counts and total views sums the YouTube rows |
| Visualizer.ReportMentions | visualizer.py:288-313 | when no row has metadata holding upvotes, comments, likes or retweets, the Reddit and Twitter side totals are 0 |
| Visualizer.OnDay | visualizer.py:101 | a day's group holds exactly the input rows of that day: every kept row is one of them, and every one of them is kept |
| Visualizer.InsertDay | visualizer.py:101 | inserting a date keeps the index increasing and adds exactly it |
| Visualizer.Dates | visualizer.py:101 | the group-by index is increasing and holds exactly the rows' days |
| Visualizer.DayTotals | visualizer.py:101 | one total per date, each the sum of that day's rows |
| Visualizer.DayTotalsSum | visualizer.py:101 | the daily totals add up to the sum of all rows |
| Visualizer.Cumsum | visualizer.py:115 | element `i` is the sum of the first `i + 1` totals |
| Visualizer.CumsumLast | visualizer.py:115 | the last running total is the grand total |
| Visualizer.CumulativeViewsTotal | visualizer.py:101-115 | the cumulative series ends at the sum of all daily views, which is the report's total views |

## Left out

- Network access is not modelled. That covers `requests.get`, the random header choice, `time.sleep`, the aiohttp session, the SteamSpy URL and the Discord webhook post. A fetch outcome is an input instead: a page with a status, or an exception message. A SteamSpy reply is a status with a parsed body, or a failure.
- BeautifulSoup is not modelled. Its search results (caption elements, containers, links with their preceding `#n` text, price spans, availability text) are given as plain data.
- Text extraction from the page is left out: the exact `get_text(" ", strip=True)` joining and which tag counts for `find_next` belong to the HTML library.
- SQLite and file handling are not modelled: the connections, `init_database`, the SQL query with its time window, and the CSV/JSON encoding. The metrics table is a sequence of rows. The visualizer receives rows already filtered and in timestamp order. The CSV file is a sequence of lines (header or row), and `latest.json` is a snapshot value.
- Clocks are parameters. The `datetime.now()` values `now` and `savedAt` are integers. The report's `generatedAt` is the `isoformat()` text, passed in as a string. Dates are whole days since the epoch (`timestamp / 86400`), not parsed ISO strings.
- Plotting, printing and logging (matplotlib and seaborn figures, console messages, loggers) have no stateable behaviour and are left out. So are `scheduler.py` and `quick_start.py`, which only orchestrate I/O.
- Python `int()` on strings is simplified to ASCII whitespace stripping, an optional sign and ASCII decimal digits. Underscores and non-ASCII digits are not accepted.
- `lower()`, `\s` and `\d` cover ASCII only.
- Text.ParseInt: its contract states the digit-only case and the necessary shape of a readable string. The exact value of a signed reading is left to its definition.
- Visualizer.SteamSummaryOf: `growth_rate` is an exact rational. Floating-point division and `round(…, 2)` are left out, so only its sign and its defining equation are stated.
- Visualizer.YouTubeSummaryOf: `avg_daily_views` is the truncated integer quotient of the total by the row count. The float mean is left out, and the bounds are stated for a non-negative total.
- Visualizer.MetaSumBounds: JSON metadata is a map from keys to integers. Non-integer values and malformed JSON (which would raise in the source) are left out, and the bound is stated for non-negative counts.
- Scraper.FormatUrl: only the literal `{asin}` is replaced, and every other brace character is copied unchanged. Python's `str.format` raises `KeyError` for any other field and `ValueError` for a lone `{` or `}`, and it turns `{{` and `}}` into single braces. That exception escapes `scrape` (scripts/scraper.py:61, before the `try`), so `run` stops before `save`. The model instead copies such text unchanged. Its lemmas are stated for templates whose only braces are those of the `{asin}` field, with no other `{` or `}`, which holds for all 18 configured URLs.
- PlotRankings.Ranks: rank values are integers, and every country entry has both `standard` and `deluxe`. In the source, a missing key raises `KeyError` while loading (plot_rankings.py:50-51). A null or non-numeric rank raises `TypeError` in the change computation (plot_rankings.py:158), which the `try` around the notification catches (plot_rankings.py:217). A float rank would make the change a float. None of these paths is modelled.
- Integer width is not modelled. CPython refuses `int()` on strings of more than 4300 digits, and so does `json` when it parses such a number. That applies to scripts/scraper.py:91 and :100, tracker.py:118, :126 and :127, and `response.json()`. The model accepts numbers of any length.
- The pandas sums are unbounded in the model. In the source, the `int64` sums and cumulative sums (visualizer.py:101, :115 and :273) wrap around past 2^63 − 1.
- Tracker.NormaliseOwners: a non-string, non-int `owners` value (a float, a list) is represented by its `str()` text.
- A JSON boolean `owners` value has no constructor of its own. Python's `isinstance` counts it as an int, so it is to be given as `OwnersInt(1)` or `OwnersInt(0)`.

=== FILE: generate_sample.dfy ===
/**
 * The sample-data generator: thirty-one days of synthetic rankings for the
 * eighteen stores (ranks shrinking toward launch day), written as a fresh
 * `rankings.csv`, and a `latest.json` snapshot holding each store's last row.
 * The random draws are inputs.
 */
module SampleData {
  import opened Optional
  import opened Seqs
  import opened Records

  /** A store of the sample set. */
  datatype Store = Store(key: string, storeLabel: string, region: string, currency: string, price: string, consoleCat: string)

  /** The eighteen Amazon storefronts of the sample, in table order. */
  function Stores(): seq<Store> {
    [
      Store("amazon_us", "🇺🇸 Amazon US", "North America", "USD", "69.99", "Video Games"),
      Store("amazon_jp", "🇯🇵 Amazon JP", "Asia", "JPY", "9680", "TVゲーム"),
      Store("amazon_uk", "🇬🇧 Amazon UK", "Europe", "GBP", "54.99", "PC & Video Games"),
      Store("amazon_de", "🇩🇪 Amazon DE", "Europe", "EUR", "69.99", "Games"),
      Store("amazon_fr", "🇫🇷 Amazon FR", "Europe", "EUR", "69.99", "Jeux vidéo"),
      Store("amazon_ca", "🇨🇦 Amazon CA", "North America", "CAD", "89.99", "Video Games"),
      Store("amazon_au", "🇦🇺 Amazon AU", "Oceania", "AUD", "99.99", "Video Games"),
      Store("amazon_it", "🇮🇹 Amazon IT", "Europe", "EUR", "69.99", "Videogiochi"),
      Store("amazon_es", "🇪🇸 Amazon ES", "Europe", "EUR", "69.99", "Videojuegos"),
      Store("amazon_mx", "🇲🇽 Amazon MX", "Latin America", "MXN", "1299", "Videojuegos"),
      Store("amazon_br", "🇧🇷 Amazon BR", "Latin America", "BRL", "349", "Games e Consoles"),
      Store("amazon_in", "🇮🇳 Amazon IN", "Asia", "INR", "4999", "Video Games"),
      Store("amazon_sg", "🇸🇬 Amazon SG", "Asia", "SGD", "89.90", "Video Games"),
      Store("amazon_nl", "🇳🇱 Amazon NL", "Europe", "EUR", "69.99", "Games"),
      Store("amazon_se", "🇸🇪 Amazon SE", "Europe", "SEK", "799", "Dator och TV-spel"),
      Store("amazon_pl", "🇵🇱 Amazon PL", "Europe", "PLN", "299", "Gry i konsole"),
      Store("amazon_ae", "🇦🇪 Amazon AE", "Middle East", "AED", "259", "Video Games"),
      Store("amazon_tr", "🇹🇷 Amazon TR", "Europe", "TRY", "2499", "Video Oyunları")
    ]
  }

  const SampleAsin := "B0SAMPLE01"
  const SampleUrl := "https://amazon.com/dp/B0SAMPLE01"
  const SecondsPerDay := 86400

  /** The three random draws made for one store on one day: `randint(1, 8)`, `randint(0, 20)` and `randint(-3, 3)`. */
  datatype Draw = Draw(multiplier: int, jitter: int, consoleJitter: int)

  /** A draw `randint` can produce. */
  predicate InRange(d: Draw) {
    1 <= d.multiplier <= 8 && 0 <= d.jitter <= 20 && -3 <= d.consoleJitter <= 3
  }

  function Max(a: int, b: int): (m: int)
    ensures m >= a && m >= b && (m == a || m == b)
  {
    if a >= b then a else b
  }

  /** Python's `range(days + 1)` has this many days. */
  function DayCount(days: int): (n: nat)
    ensures days >= 0 ==> n == days + 1
    ensures days < 0 ==> n == 0
  {
    if days < 0 then 0 else days + 1
  }

  /** Day `i`'s multiplier: the number of days left before the last one, plus one, and never below 1. */
  function LaunchBoost(days: int, i: int): (b: int)
    ensures b >= 1
    ensures i <= days ==> b == days - i + 1
  {
    Max(1, days - i + 1)
  }

  /** Day `i`'s timestamp: `days - i` days before now. */
  function DayStamp(now: int, days: int, i: int): int {
    now - (days - i) * SecondsPerDay
  }

  /** `base_overall`: the day's boost scaled by the multiplier draw, plus the jitter draw. */
  function BaseOverall(boost: int, d: Draw): (b: int)
    ensures InRange(d) && boost >= 1 ==> boost <= b <= 8 * boost + 20
  {
    assert InRange(d) && boost >= 1 ==> (d.multiplier - 1) * boost >= 0 && (8 - d.multiplier) * boost >= 0;
    d.multiplier * boost + d.jitter
  }

  /** `base_console`: a quarter of the overall base (rounded down), plus the console jitter draw, at least 1. */
  function BaseConsole(baseOverall: int, d: Draw): (b: int)
    ensures b >= 1
    ensures 4 * (b - d.consoleJitter) <= baseOverall < 4 * (b - d.consoleJitter) + 4 || b == 1
  {
    Max(1, baseOverall / 4 + d.consoleJitter)
  }

  /** One generated row: the store's descriptor, the sample ASIN and URL, and the two clamped ranks. */
  function SampleRow(s: Store, ts: int, boost: int, d: Draw): (r: Record)
    ensures r.timestamp == ts
    ensures r.store == s.key && r.storeLabel == s.storeLabel && r.region == s.region
    ensures r.currency == s.currency && r.consoleCategory == s.consoleCat && r.price == Some(s.price)
    ensures r.asin == SampleAsin && r.url == SampleUrl
    ensures r.inStock == Some(true) && r.error == None
    ensures r.rankOverall.Some? && r.rankOverall.value >= 1
    ensures r.rankConsole.Some? && r.rankConsole.value >= 1
  {
    var baseOverall := BaseOverall(boost, d);
    var baseConsole := BaseConsole(baseOverall, d);
    Record(ts, s.key, s.storeLabel, s.region, SampleAsin, SampleUrl,
      Some(Max(1, baseOverall)), Some(Max(1, baseConsole)),
      s.consoleCat, Some(s.price), s.currency, Some(true), None)
  }

  /** With draws `randint` can produce, the overall rank is the unclamped base and never below the day's launch boost. */
  lemma RankFollowsBoost(s: Store, ts: int, boost: int, d: Draw)
    requires InRange(d) && boost >= 1
    ensures SampleRow(s, ts, boost, d).rankOverall.value == BaseOverall(boost, d)
    ensures boost <= SampleRow(s, ts, boost, d).rankOverall.value <= 8 * boost + 20
  {
  }

  /** The rows of one day, one per store in store order. */
  function DayRows(stores: seq<Store>, ts: int, boost: int, ds: seq<Draw>): (r: seq<Record>)
    requires |ds| == |stores|
    ensures |r| == |stores|
    ensures forall k :: 0 <= k < |stores| ==> r[k] == SampleRow(stores[k], ts, boost, ds[k])
  {
    seq(|stores|, k requires 0 <= k < |stores| => SampleRow(stores[k], ts, boost, ds[k]))
  }

  /** Shape of the draws: one list per day, one draw per store. */
  predicate DrawsFit(stores: seq<Store>, draws: seq<seq<Draw>>) {
    forall i :: 0 <= i < |draws| ==> |draws[i]| == |stores|
  }

  /** The rows of the first `n` days, day after day. */
  function GenSpec(stores: seq<Store>, days: int, now: int, draws: seq<seq<Draw>>, n: nat): (r: seq<Record>)
    requires n <= |draws| && DrawsFit(stores, draws)
  {
    if n == 0 then []
    else
      GenSpec(stores, days, now, draws, n - 1)
        + DayRows(stores, DayStamp(now, days, n - 1), LaunchBoost(days, n - 1), draws[n - 1])
  }

  /**
   * `gen(days)`: for each day `i` of `range(days + 1)`, and for each store
   * in order, one row built from that store's draws of that day.
   */
  method Gen(stores: seq<Store>, days: int, now: int, draws: seq<seq<Draw>>) returns (rows: seq<Record>)
    requires |draws| == DayCount(days) && DrawsFit(stores, draws)
    ensures rows == GenSpec(stores, days, now, draws, |draws|)
  {
    rows := [];
    for i := 0 to DayCount(days)
      invariant rows == GenSpec(stores, days, now, draws, i)
    {
      rows := AppendDay(rows, stores, DayStamp(now, days, i), LaunchBoost(days, i), draws[i]);
    }
  }

  /** The inner loop of `gen`: one row per store, in order, appended to `rows`. */
  method AppendDay(rows: seq<Record>, stores: seq<Store>, ts: int, boost: int, ds: seq<Draw>) returns (r: seq<Record>)
    requires |ds| == |stores|
    ensures r == rows + DayRows(stores, ts, boost, ds)
  {
    r := rows;
    for k := 0 to |stores|
      invariant r == rows + DayRows(stores[..k], ts, boost, ds[..k])
    {
      assert stores[..k + 1][..k] == stores[..k];
      assert ds[..k + 1][..k] == ds[..k];
      r := r + [SampleRow(stores[k], ts, boost, ds[k])];
    }
    TakeAll(stores);
    TakeAll(ds);
  }

  /** Where day `i`'s rows start when every day has `m` rows. */
  function Offset(i: nat, m: nat): nat {
    if i == 0 then 0 else Offset(i - 1, m) + m
  }

  lemma {:induction false} OffsetIsProduct(i: nat, m: nat)
    ensures Offset(i, m) == i * m
  {
    if i > 0 {
      OffsetIsProduct(i - 1, m);
      assert (i - 1) * m + m == i * m;
    }
  }

  lemma {:induction false} OffsetMono(a: nat, b: nat, m: nat)
    requires a <= b
    ensures Offset(a, m) <= Offset(b, m)
    decreases b
  {
    if a < b {
      OffsetMono(a, b - 1, m);
    }
  }

}

/** What `gen` produces: how many rows, in which order, and what each holds. */
module SampleRows {
  import opened Optional
  import opened Records
  import opened SampleData

  /** The first `n` days hold `Offset(n, |stores|)` rows. */
  lemma {:induction false} GenLength(stores: seq<Store>, days: int, now: int, draws: seq<seq<Draw>>, n: nat)
    requires n <= |draws| && DrawsFit(stores, draws)
    ensures |GenSpec(stores, days, now, draws, n)| == Offset(n, |stores|)
  {
    if n > 0 {
      GenLength(stores, days, now, draws, n - 1);
    }
  }

  /** Among the first `n` days, the row of day `i`, store `k` is the `k`-th row of block `i`. */
  lemma GenAt(stores: seq<Store>, days: int, now: int, draws: seq<seq<Draw>>, n: nat, i: nat, k: nat)
    requires n <= |draws| && DrawsFit(stores, draws)
    requires i < n && k < |stores|
    ensures Offset(i, |stores|) + k < |GenSpec(stores, days, now, draws, n)|
    ensures GenSpec(stores, days, now, draws, n)[Offset(i, |stores|) + k]
         == SampleRow(stores[k], DayStamp(now, days, i), LaunchBoost(days, i), draws[i][k])
  {
    var j := Offset(i, |stores|) + k;
    GenLastDay(stores, days, now, draws, i, k, j);
    GenKeepsPrefix(stores, days, now, draws, n, i + 1, j, SampleRow(stores[k], DayStamp(now, days, i), LaunchBoost(days, i), draws[i][k]));
  }

  /** Row `j` of the first `i` days stays in place as later days are added. */
  lemma {:induction false} GenKeepsPrefix(stores: seq<Store>, days: int, now: int, draws: seq<seq<Draw>>, n: nat, i: nat, j: nat, r: Record)
    requires i <= n <= |draws| && DrawsFit(stores, draws)
    requires j < |GenSpec(stores, days, now, draws, i)| && GenSpec(stores, days, now, draws, i)[j] == r
    decreases n
    ensures j < |GenSpec(stores, days, now, draws, n)|
    ensures GenSpec(stores, days, now, draws, n)[j] == r
  {
    if i < n {
      GenKeepsPrefix(stores, days, now, draws, n - 1, i, j, r);
      GenExtends(stores, days, now, draws, n - 1, j);
    }
  }

  /** Adding day `n` keeps the rows of the days before. */
  lemma GenExtends(stores: seq<Store>, days: int, now: int, draws: seq<seq<Draw>>, n: nat, j: nat)
    requires n < |draws| && DrawsFit(stores, draws)
    requires j < |GenSpec(stores, days, now, draws, n)|
    ensures j < |GenSpec(stores, days, now, draws, n + 1)|
    ensures GenSpec(stores, days, now, draws, n + 1)[j] == GenSpec(stores, days, now, draws, n)[j]
  {
  }

  /** Row `j`, the `k`-th after those of the first `n` days, is store `k`'s row of day `n`. */
  lemma GenLastDay(stores: seq<Store>, days: int, now: int, draws: seq<seq<Draw>>, n: nat, k: nat, j: nat)
    requires n < |draws| && DrawsFit(stores, draws)
    requires k < |stores| && j == Offset(n, |stores|) + k
    ensures j < |GenSpec(stores, days, now, draws, n + 1)|
    ensures GenSpec(stores, days, now, draws, n + 1)[j]
         == SampleRow(stores[k], DayStamp(now, days, n), LaunchBoost(days, n), draws[n][k])
  {
    GenLength(stores, days, now, draws, n);
    var prev := GenSpec(stores, days, now, draws, n);
    var day := DayRows(stores, DayStamp(now, days, n), LaunchBoost(days, n), draws[n]);
    assert GenSpec(stores, days, now, draws, n + 1) == prev + day;
    assert (prev + day)[j] == day[k];
  }

  /** `gen(days)` yields `(days + 1) * len(STORES)` rows, and none for a negative `days`. */
  lemma GenRowCount(stores: seq<Store>, days: int, now: int, draws: seq<seq<Draw>>)
    requires |draws| == DayCount(days) && DrawsFit(stores, draws)
    ensures |GenSpec(stores, days, now, draws, |draws|)| == DayCount(days) * |stores|
  {
    GenLength(stores, days, now, draws, |draws|);
    OffsetIsProduct(|draws|, |stores|);
  }

  /** The row of day `i`, store `k` sits at index `i * len(STORES) + k`: days in order, stores in table order within a day. */
  lemma GenRowAt(stores: seq<Store>, days: int, now: int, draws: seq<seq<Draw>>, i: nat, k: nat)
    requires |draws| == DayCount(days) && DrawsFit(stores, draws)
    requires i < |draws| && k < |stores|
    ensures i * |stores| + k < |GenSpec(stores, days, now, draws, |draws|)|
    ensures GenSpec(stores, days, now, draws, |draws|)[i * |stores| + k]
         == SampleRow(stores[k], DayStamp(now, days, i), LaunchBoost(days, i), draws[i][k])
  {
    OffsetIsProduct(i, |stores|);
    GenAt(stores, days, now, draws, |draws|, i, k);
  }

  /** Every generated row has both ranks at least 1, `in_stock` true and no error. */
  lemma GenRowsWellFormed(stores: seq<Store>, days: int, now: int, draws: seq<seq<Draw>>)
    requires |draws| == DayCount(days) && DrawsFit(stores, draws)
    ensures forall r :: r in GenSpec(stores, days, now, draws, |draws|) ==>
      r.rankOverall.Some? && r.rankOverall.value >= 1 && r.rankConsole.Some? && r.rankConsole.value >= 1 &&
      r.inStock == Some(true) && r.error == None
  {
    forall r | r in GenSpec(stores, days, now, draws, |draws|)
      ensures r.rankOverall.Some? && r.rankOverall.value >= 1 && r.rankConsole.Some? && r.rankConsole.value >= 1
      ensures r.inStock == Some(true) && r.error == None
    {
      AllRowsSampled(stores, days, now, draws, |draws|, r);
    }
  }

  /** Every generated row is some store's sample row. */
  lemma {:induction false} AllRowsSampled(stores: seq<Store>, days: int, now: int, draws: seq<seq<Draw>>, n: nat, r: Record)
    requires n <= |draws| && DrawsFit(stores, draws)
    requires r in GenSpec(stores, days, now, draws, n)
    ensures exists i, k :: 0 <= i < n && 0 <= k < |stores| && r == SampleRow(stores[k], DayStamp(now, days, i), LaunchBoost(days, i), draws[i][k])
  {
    var prev := GenSpec(stores, days, now, draws, n - 1);
    var day := DayRows(stores, DayStamp(now, days, n - 1), LaunchBoost(days, n - 1), draws[n - 1]);
    if r in prev {
      AllRowsSampled(stores, days, now, draws, n - 1, r);
    } else {
      var k :| 0 <= k < |day| && day[k] == r;
      assert r == SampleRow(stores[k], DayStamp(now, days, n - 1), LaunchBoost(days, n - 1), draws[n - 1][k]);
    }
  }
}

/**
 * `latest_by_store`: a dictionary from store key to the last row seen for
 * that store, filled in row order, whose values become the snapshot.
 */
module SampleLatest {
  import opened Optional
  import opened Seqs
  import opened Records

  /** The store keys of `rows` in order of first appearance (the key order of a dictionary filled from `rows`). */
  function FirstKeys(rows: seq<Record>): (ks: seq<string>)
    ensures forall k :: k in ks <==> exists i :: 0 <= i < |rows| && rows[i].store == k
    ensures forall a, b :: 0 <= a < b < |ks| ==> ks[a] != ks[b]
  {
    if rows == [] then []
    else
      var init := rows[..|rows| - 1];
      var ks := FirstKeys(init);
      assert forall i :: 0 <= i < |init| ==> init[i] == rows[i];
      if rows[|rows| - 1].store in ks then ks else ks + [rows[|rows| - 1].store]
  }

  /** The index of the last row of `rows` with store key `key`, or -1 when there is none. */
  function LastIndex(rows: seq<Record>, key: string): (i: int)
    ensures -1 <= i < |rows|
    ensures i >= 0 ==> rows[i].store == key
    ensures forall j :: i < j < |rows| ==> rows[j].store != key
  {
    if rows == [] then -1
    else if rows[|rows| - 1].store == key then |rows| - 1
    else LastIndex(rows[..|rows| - 1], key)
  }

  /** The last row of `rows` with store key `key`, if any. */
  function LastRow(rows: seq<Record>, key: string): (r: Option<Record>)
    ensures r.Some? ==> r.value.store == key
  {
    var i := LastIndex(rows, key);
    if i >= 0 then Some(rows[i]) else None
  }

  /** For each key in order, its last row. */
  function LastRows(rows: seq<Record>, keys: seq<string>): (r: seq<Record>)
    requires forall k :: k in keys ==> LastRow(rows, k).Some?
    ensures |r| == |keys|
    ensures forall j :: 0 <= j < |keys| ==> r[j] == LastRow(rows, keys[j]).value
  {
    if keys == [] then [] else [LastRow(rows, keys[0]).value] + LastRows(rows, keys[1..])
  }

  /** The snapshot's results: `list(latest_by_store.values())`. */
  function LatestResults(rows: seq<Record>): seq<Record> {
    LastRows(rows, FirstKeys(rows))
  }

  /**
   * The `latest_by_store` loop: each row overwrites the entry of its store
   * (a new store is added at the end), and the values are listed in key
   * order.
   */
  method LatestByStore(rows: seq<Record>) returns (results: seq<Record>)
    ensures results == LatestResults(rows)
  {
    var keys, latest := IndexByStore(rows);
    assert forall x :: x in keys ==> LastRow(rows, x) == Some(latest[x]);
    results := [];
    for j := 0 to |keys|
      invariant results == LastRows(rows, keys[..j])
    {
      var x := keys[j];
      assert LastRow(rows, x) == Some(latest[x]);
      TakeSnoc(keys, j);
      assert forall y :: y in keys[..j] ==> LastRow(rows, y).Some?;
      LastRowsSnoc(rows, keys[..j], x);
      results := results + [latest[x]];
    }
    TakeAll(keys);
  }

  /** The dictionary `latest_by_store` after every row: its keys in insertion order, and its entries. */
  method IndexByStore(rows: seq<Record>) returns (keys: seq<string>, latest: map<string, Record>)
    ensures keys == FirstKeys(rows)
    ensures forall k :: k in latest <==> k in keys
    ensures forall k :: k in latest ==> LastRow(rows, k) == Some(latest[k])
  {
    keys := [];
    latest := map[];
    for i := 0 to |rows|
      invariant keys == FirstKeys(rows[..i])
      invariant forall k :: k in latest <==> k in keys
      invariant forall k :: k in latest ==> LastRow(rows[..i], k) == Some(latest[k])
    {
      var r := rows[i];
      TakeSnoc(rows, i);
      FirstKeysSnoc(rows[..i], r);
      if r.store !in latest {
        keys := keys + [r.store];
      }
      LatestAfterRow(rows[..i], r, latest);
      latest := latest[r.store := r];
    }
    TakeAll(rows);
  }

  /** Overwriting the entry of a row's store keeps every entry the last row of its store. */
  lemma LatestAfterRow(rows: seq<Record>, r: Record, latest: map<string, Record>)
    requires forall k :: k in latest ==> LastRow(rows, k) == Some(latest[k])
    ensures forall k :: k in latest[r.store := r] ==> LastRow(rows + [r], k) == Some(latest[r.store := r][k])
  {
    forall k | k in latest[r.store := r]
      ensures LastRow(rows + [r], k) == Some(latest[r.store := r][k])
    {
      LastRowSnoc(rows, r, k);
    }
  }

  /** A dictionary key order after one more row. */
  lemma FirstKeysSnoc(rows: seq<Record>, r: Record)
    ensures FirstKeys(rows + [r]) == if r.store in FirstKeys(rows) then FirstKeys(rows) else FirstKeys(rows) + [r.store]
  {
    assert (rows + [r])[..|rows|] == rows;
  }

  /** A store's last row after one more row. */
  lemma LastRowSnoc(rows: seq<Record>, r: Record, key: string)
    ensures LastRow(rows + [r], key) == if r.store == key then Some(r) else LastRow(rows, key)
  {
    assert (rows + [r])[..|rows|] == rows;
  }

  lemma LastRowsSnoc(rows: seq<Record>, keys: seq<string>, k: string)
    requires forall x :: x in keys + [k] ==> LastRow(rows, x).Some?
    ensures LastRows(rows, keys + [k]) == LastRows(rows, keys) + [LastRow(rows, k).value]
  {
  }

  /** Appending rows with already-known keys does not change the key order. */
  lemma {:induction false} FirstKeysAppendKnown(a: seq<Record>, b: seq<Record>)
    requires forall i :: 0 <= i < |b| ==> b[i].store in FirstKeys(a)
    ensures FirstKeys(a + b) == FirstKeys(a)
    decreases |b|
  {
    if b == [] {
      assert a + b == a;
    } else {
      var init := b[..|b| - 1];
      FirstKeysAppendKnown(a, init);
      assert (a + b)[..|a + b| - 1] == a + init;
    }
  }

  /** The last row of a key is found in the later part when that part holds the key. */
  lemma {:induction false} LastRowAppend(a: seq<Record>, b: seq<Record>, key: string)
    ensures LastRow(a + b, key) == if LastRow(b, key).Some? then LastRow(b, key) else LastRow(a, key)
    decreases |b|
  {
    if b == [] {
      assert a + b == a;
    } else {
      var init := b[..|b| - 1];
      LastRowAppend(a, init, key);
      assert (a + b)[..|a + b| - 1] == a + init;
    }
  }
}

/**
 * The generator script's output: the rows of every day in a fresh
 * `rankings.csv`, and in `latest.json` each store's row of the final day.
 */
module SampleSnapshot {
  import opened Optional
  import opened Records
  import opened SampleData
  import opened SampleLatest
  import opened SampleRows

  function Keys(stores: seq<Store>): (ks: seq<string>)
    ensures |ks| == |stores| && forall k :: 0 <= k < |stores| ==> ks[k] == stores[k].key
  {
    if stores == [] then [] else Keys(stores[..|stores| - 1]) + [stores[|stores| - 1].key]
  }

  predicate DistinctKeys(stores: seq<Store>) {
    forall a, b :: 0 <= a < b < |stores| ==> stores[a].key != stores[b].key
  }

  /** The configured stores have pairwise distinct keys. */
  lemma StoresDistinct()
    ensures DistinctKeys(Stores())
  {
    var s := Stores();
    forall a, b | 0 <= a < b < |s|
      ensures s[a].key != s[b].key
    {
      assert (s[a].key[7], s[a].key[8]) != (s[b].key[7], s[b].key[8]);
    }
  }

  /** One day's rows list the store keys in store order. */
  lemma {:induction false} FirstKeysOfDay(stores: seq<Store>, ts: int, boost: int, ds: seq<Draw>)
    requires |ds| == |stores| && DistinctKeys(stores)
    ensures FirstKeys(DayRows(stores, ts, boost, ds)) == Keys(stores)
  {
    if stores != [] {
      var n := |stores| - 1;
      FirstKeysOfDay(stores[..n], ts, boost, ds[..n]);
      var rows := DayRows(stores, ts, boost, ds);
      assert rows[..n] == DayRows(stores[..n], ts, boost, ds[..n]);
      assert stores[n].key !in Keys(stores[..n]);
    }
  }

  /** Within one day, a store's only row is its last one. */
  lemma LastRowOfDay(stores: seq<Store>, ts: int, boost: int, ds: seq<Draw>, k: nat)
    requires |ds| == |stores| && DistinctKeys(stores) && k < |stores|
    ensures LastRow(DayRows(stores, ts, boost, ds), stores[k].key) == Some(SampleRow(stores[k], ts, boost, ds[k]))
  {
    var rows := DayRows(stores, ts, boost, ds);
    assert rows[k].store == stores[k].key;
    assert forall j :: 0 <= j < |rows| && j != k ==> rows[j].store != stores[k].key;
    assert LastIndex(rows, stores[k].key) == k;
  }

  /** Every store key of a day's rows is already known once the keys so far are those of the stores. */
  lemma DayKeysKnown(stores: seq<Store>, ts: int, boost: int, ds: seq<Draw>, known: seq<Record>)
    requires |ds| == |stores| && FirstKeys(known) == Keys(stores)
    ensures forall i :: 0 <= i < |stores| ==> DayRows(stores, ts, boost, ds)[i].store in FirstKeys(known)
  {
    forall i | 0 <= i < |stores|
      ensures DayRows(stores, ts, boost, ds)[i].store in FirstKeys(known)
    {
      assert Keys(stores)[i] == stores[i].key;
    }
  }

  /** Once the keys so far are those of the stores, another day keeps them so. */
  lemma FirstKeysNextDay(known: seq<Record>, stores: seq<Store>, ts: int, boost: int, ds: seq<Draw>)
    requires |ds| == |stores| && FirstKeys(known) == Keys(stores)
    ensures FirstKeys(known + DayRows(stores, ts, boost, ds)) == Keys(stores)
  {
    DayKeysKnown(stores, ts, boost, ds, known);
    FirstKeysAppendKnown(known, DayRows(stores, ts, boost, ds));
  }

  /** With distinct store keys and at least one day, the generated rows list the stores in store order. */
  lemma {:induction false} FirstKeysOfPrefix(stores: seq<Store>, days: int, now: int, draws: seq<seq<Draw>>, n: nat)
    requires 1 <= n <= |draws| && DrawsFit(stores, draws) && DistinctKeys(stores)
    ensures FirstKeys(GenSpec(stores, days, now, draws, n)) == Keys(stores)
  {
    if n == 1 {
      FirstKeysOfFirstDay(stores, days, now, draws);
    } else {
      FirstKeysOfPrefix(stores, days, now, draws, n - 1);
      FirstKeysOfNextDay(stores, days, now, draws, n);
    }
  }

  lemma FirstKeysOfFirstDay(stores: seq<Store>, days: int, now: int, draws: seq<seq<Draw>>)
    requires 1 <= |draws| && DrawsFit(stores, draws) && DistinctKeys(stores)
    ensures FirstKeys(GenSpec(stores, days, now, draws, 1)) == Keys(stores)
  {
    var day := DayRows(stores, DayStamp(now, days, 0), LaunchBoost(days, 0), draws[0]);
    assert GenSpec(stores, days, now, draws, 1) == [] + day;
    assert [] + day == day;
    FirstKeysOfDay(stores, DayStamp(now, days, 0), LaunchBoost(days, 0), draws[0]);
  }

  lemma FirstKeysOfNextDay(stores: seq<Store>, days: int, now: int, draws: seq<seq<Draw>>, n: nat)
    requires 2 <= n <= |draws| && DrawsFit(stores, draws)
    requires FirstKeys(GenSpec(stores, days, now, draws, n - 1)) == Keys(stores)
    ensures FirstKeys(GenSpec(stores, days, now, draws, n)) == Keys(stores)
  {
    FirstKeysNextDay(GenSpec(stores, days, now, draws, n - 1), stores, DayStamp(now, days, n - 1), LaunchBoost(days, n - 1), draws[n - 1]);
  }

  /** A store's last row among the first `n` days is its row of day `n - 1`. */
  lemma LastRowIsFinalDay(stores: seq<Store>, days: int, now: int, draws: seq<seq<Draw>>, n: nat, k: nat)
    requires 1 <= n <= |draws| && DrawsFit(stores, draws) && DistinctKeys(stores) && k < |stores|
    ensures LastRow(GenSpec(stores, days, now, draws, n), stores[k].key)
      == Some(DayRows(stores, DayStamp(now, days, n - 1), LaunchBoost(days, n - 1), draws[n - 1])[k])
  {
    var prev := GenSpec(stores, days, now, draws, n - 1);
    var day := DayRows(stores, DayStamp(now, days, n - 1), LaunchBoost(days, n - 1), draws[n - 1]);
    LastRowOfDay(stores, DayStamp(now, days, n - 1), LaunchBoost(days, n - 1), draws[n - 1], k);
    LastRowAppend(prev, day, stores[k].key);
  }

  /**
   * With distinct store keys and at least one day, the snapshot lists the
   * stores in store order, each with its row of the final day.
   */
  lemma LatestIsFinalDay(stores: seq<Store>, days: int, now: int, draws: seq<seq<Draw>>, n: nat)
    requires 1 <= n <= |draws| && DrawsFit(stores, draws) && DistinctKeys(stores)
    ensures LatestResults(GenSpec(stores, days, now, draws, n))
      == DayRows(stores, DayStamp(now, days, n - 1), LaunchBoost(days, n - 1), draws[n - 1])
  {
    var rows := GenSpec(stores, days, now, draws, n);
    var day := DayRows(stores, DayStamp(now, days, n - 1), LaunchBoost(days, n - 1), draws[n - 1]);
    FirstKeysOfPrefix(stores, days, now, draws, n);
    var latest := LastRows(rows, Keys(stores));
    forall j | 0 <= j < |stores|
      ensures latest[j] == day[j]
    {
      LastRowIsFinalDay(stores, days, now, draws, n, j);
    }
  }

  /** With the configured stores, `latest.json` holds the rows of the final day. */
  lemma SampleLatestIsFinalDay(days: int, now: int, draws: seq<seq<Draw>>)
    requires |draws| >= 1 && DrawsFit(Stores(), draws)
    ensures LatestResults(GenSpec(Stores(), days, now, draws, |draws|))
      == DayRows(Stores(), DayStamp(now, days, |draws| - 1), LaunchBoost(days, |draws| - 1), draws[|draws| - 1])
  {
    StoresDistinct();
    LatestIsFinalDay(Stores(), days, now, draws, |draws|);
  }

  /**
   * The generator script: generate the rows, then overwrite `rankings.csv`
   * with the header and every row, and `latest.json` with each store's last
   * row.
   */
  method GenerateSample(dir: DataDir, days: int, now: int, draws: seq<seq<Draw>>, savedAt: int)
    requires |draws| == DayCount(days) && DrawsFit(Stores(), draws)
    modifies dir
    ensures dir.rankingsCsv == Some([Header] + RowsOf(GenSpec(Stores(), days, now, draws, |draws|)))
    ensures dir.latestJson == Some(Snapshot(savedAt, LatestResults(GenSpec(Stores(), days, now, draws, |draws|))))
    ensures |draws| >= 1 ==>
              dir.latestJson == Some(Snapshot(savedAt, DayRows(Stores(), DayStamp(now, days, |draws| - 1),
                                                               LaunchBoost(days, |draws| - 1), draws[|draws| - 1])))
  {
    var rows := Gen(Stores(), days, now, draws);
    var latest := LatestByStore(rows);
    dir.Overwrite(rows, latest, savedAt);
    if |draws| >= 1 {
      SampleLatestIsFinalDay(days, now, draws);
    }
  }
}

=== FILE: optional.dfy ===
/** The optional value used wherever the original program stores `None`. */
module Optional {
  datatype Option<+T> = None | Some(value: T)
  {
    /** The value if present, else `default` (Python's `dict.get(key, default)`). */
    function GetOr(default: T): (r: T)
      ensures this.Some? ==> r == value
      ensures this.None? ==> r == default
    {
      match this
      case Some(v) => v
      case None => default
    }
  }
}

=== FILE: ordering.dfy ===
/**
 * The orders Python's `sorted()` uses here: code-point lexicographic order on
 * strings (for country names) and numeric order on timestamps.
 */
module Ordering {

  /** Python's `a < b` on strings: the first differing character decides, and a proper prefix is smaller. */
  predicate StrLess(a: string, b: string)
    decreases |a|
  {
    if a == [] then b != []
    else if b == [] then false
    else if a[0] != b[0] then a[0] < b[0]
    else StrLess(a[1..], b[1..])
  }

  lemma {:induction false} StrLessIrreflexive(a: string)
    ensures !StrLess(a, a)
    decreases |a|
  {
    if a != [] {
      StrLessIrreflexive(a[1..]);
    }
  }

  lemma {:induction false} StrLessTransitive(a: string, b: string, c: string)
    requires StrLess(a, b) && StrLess(b, c)
    ensures StrLess(a, c)
    decreases |a|
  {
    if a != [] && b != [] && c != [] && a[0] == b[0] && b[0] == c[0] {
      StrLessTransitive(a[1..], b[1..], c[1..]);
    }
  }

  lemma {:induction false} StrLessTotal(a: string, b: string)
    ensures a == b || StrLess(a, b) || StrLess(b, a)
    decreases |a|
  {
    if a != [] && b != [] && a[0] == b[0] {
      StrLessTotal(a[1..], b[1..]);
      if a[1..] == b[1..] {
        assert a == [a[0]] + a[1..] && b == [b[0]] + b[1..];
      }
    }
  }

  /** Strictly ascending, hence also free of duplicates. */
  ghost predicate StrictlySorted(s: seq<string>) {
    forall i, j :: 0 <= i < j < |s| ==> StrLess(s[i], s[j])
  }

  /** Every finite non-empty set of strings has a least element. */
  lemma {:induction false} LeastExists(s: set<string>)
    requires s != {}
    ensures exists m :: m in s && forall y :: y in s && y != m ==> StrLess(m, y)
    decreases |s|
  {
    var x :| x in s;
    if s - {x} == {} {
      assert s == {x};
      assert forall y :: y in s && y != x ==> StrLess(x, y);
    } else {
      LeastExists(s - {x});
      var m :| m in s - {x} && forall y :: y in s - {x} && y != m ==> StrLess(m, y);
      StrLessTotal(m, x);
      if StrLess(m, x) {
        assert forall y :: y in s && y != m ==> StrLess(m, y);
      } else {
        forall y | y in s && y != x
          ensures StrLess(x, y)
        {
          if y != m {
            StrLessTransitive(x, m, y);
          }
        }
      }
    }
  }

  /**
   * `sorted(s)` for a set of strings: the elements of `s`, each once, in
   * ascending order (by repeatedly taking the least remaining element).
   */
  method SortedStrings(s: set<string>) returns (r: seq<string>)
    ensures StrictlySorted(r)
    ensures forall x :: x in r <==> x in s
    ensures |r| == |s|
  {
    r := [];
    var rest := s;
    while rest != {}
      invariant StrictlySorted(r)
      invariant rest <= s
      invariant forall x :: x in r <==> x in s && x !in rest
      invariant forall i, y :: 0 <= i < |r| && y in rest ==> StrLess(r[i], y)
      invariant |r| + |rest| == |s|
      decreases |rest|
    {
      LeastExists(rest);
      var m :| m in rest && forall y :: y in rest && y != m ==> StrLess(m, y);
      forall i, y | 0 <= i < |r| && y in rest - {m}
        ensures StrLess(r[i], y)
      {
      }
      r := r + [m];
      rest := rest - {m};
    }
  }

  ghost predicate Ascending(s: seq<int>) {
    forall i, j :: 0 <= i < j < |s| ==> s[i] <= s[j]
  }

  /** `x` placed before the first element of `s` larger than it. */
  function InsertAscending(x: int, s: seq<int>): (r: seq<int>)
    requires Ascending(s)
    ensures Ascending(r)
    ensures multiset(r) == multiset(s) + multiset{x}
    ensures r != [] && (r[0] == x || (s != [] && r[0] == s[0]))
  {
    if s == [] || x <= s[0] then [x] + s
    else
      var t := InsertAscending(x, s[1..]);
      assert s == [s[0]] + s[1..];
      AscendingCons(s[0], t);
      [s[0]] + t
  }

  lemma AscendingCons(x: int, t: seq<int>)
    requires Ascending(t) && (t != [] ==> x <= t[0])
    ensures Ascending([x] + t)
  {
    forall i, j | 0 <= i < j < |[x] + t|
      ensures ([x] + t)[i] <= ([x] + t)[j]
    {
      if i > 0 {
        assert ([x] + t)[i] == t[i - 1];
      }
      assert ([x] + t)[j] == t[j - 1];
    }
  }

  /** `sorted(s)` for a list of numbers: the same elements, in ascending order. */
  function SortAscending(s: seq<int>): (r: seq<int>)
    ensures Ascending(r)
    ensures multiset(r) == multiset(s)
    ensures |r| == |s|
  {
    if s == [] then []
    else
      assert s == [s[0]] + s[1..];
      InsertAscending(s[0], SortAscending(s[1..]))
  }
}

=== FILE: plot_rankings.dfy ===
/**
 * The restructuring step of the ranking-graph script: the daily ranking
 * log (one entry per run, each with per-country Standard and Deluxe ranks)
 * becomes one series per country, the countries whose Standard rank moved
 * most between the last two points are selected for the notification, and
 * country names are made safe for file names.
 */
module PlotRankings {
  import opened Text
  import opened Ordering
  import opened Seqs

  /** The ranks one entry records for one country. */
  datatype Ranks = Ranks(standard: int, deluxe: int)

  /** One entry of the log: its timestamp (an ordered value) and `raw_results`, country to ranks. */
  datatype Entry = Entry(timestamp: int, rawResults: map<string, Ranks>)

  /** The three parallel lists kept for a country. */
  datatype Series = Series(dates: seq<int>, standard: seq<int>, deluxe: seq<int>)

  const EmptySeries := Series([], [], [])

  // ---------------------------------------------------------------------
  // parse_data

  /** Every country key of every entry. */
  function AllCountries(data: seq<Entry>): (r: set<string>)
    ensures forall c :: c in r <==> exists i :: 0 <= i < |data| && c in data[i].rawResults
  {
    if data == [] then {}
    else
      var r := AllCountries(data[..|data| - 1]) + data[|data| - 1].rawResults.Keys;
      assert forall i :: 0 <= i < |data| - 1 ==> data[..|data| - 1][i] == data[i];
      r
  }

  /** The entries' timestamps, in entry order. */
  function Timestamps(data: seq<Entry>): (r: seq<int>)
    ensures |r| == |data|
    ensures forall i :: 0 <= i < |data| ==> r[i] == data[i].timestamp
  {
    if data == [] then [] else Timestamps(data[..|data| - 1]) + [data[|data| - 1].timestamp]
  }

  /** A series with one more point at its end. */
  function Extend(s: Series, date: int, ranks: Ranks): Series {
    Series(s.dates + [date], s.standard + [ranks.standard], s.deluxe + [ranks.deluxe])
  }

  /** The series of country `c`: one point per entry holding `c`, in entry order. */
  function SeriesOf(data: seq<Entry>, c: string): (s: Series)
    ensures |s.dates| == |s.standard| == |s.deluxe|
  {
    if data == [] then EmptySeries
    else
      var e := data[|data| - 1];
      var s := SeriesOf(data[..|data| - 1], c);
      if c in e.rawResults then Extend(s, e.timestamp, e.rawResults[c]) else s
  }

  /** The indices of the entries holding `c`, ascending. */
  function Positions(data: seq<Entry>, c: string): (p: seq<nat>)
    ensures forall k :: 0 <= k < |p| ==> p[k] < |data| && c in data[p[k]].rawResults
    ensures forall k, l :: 0 <= k < l < |p| ==> p[k] < p[l]
    ensures forall i :: 0 <= i < |data| && c in data[i].rawResults ==> i in p
  {
    if data == [] then []
    else
      var q := Positions(data[..|data| - 1], c);
      if c in data[|data| - 1].rawResults then q + [|data| - 1] else q
  }

  /**
   * The series of `c` lists, point by point, the timestamp and ranks of the
   * entries holding `c`, in entry order: an entry contributes exactly when
   * it holds `c`.
   */
  lemma {:induction false} SeriesFollowsEntries(data: seq<Entry>, c: string)
    ensures var s, p := SeriesOf(data, c), Positions(data, c);
      |s.dates| == |p|
      && forall k :: 0 <= k < |p| ==>
        s.dates[k] == data[p[k]].timestamp
        && s.standard[k] == data[p[k]].rawResults[c].standard
        && s.deluxe[k] == data[p[k]].rawResults[c].deluxe
  {
    if data != [] {
      var init := data[..|data| - 1];
      SeriesFollowsEntries(init, c);
      assert forall i :: 0 <= i < |init| ==> init[i] == data[i];
    }
  }

  /** Every country found in the log has at least one point. */
  lemma {:induction false} CountryHasPoint(data: seq<Entry>, c: string)
    requires c in AllCountries(data)
    ensures |SeriesOf(data, c).dates| >= 1
  {
    var i :| 0 <= i < |data| && c in data[i].rawResults;
    SeriesFollowsEntries(data, c);
    assert i in Positions(data, c);
  }

  /**
   * `parse_data`: the sorted, duplicate-free country list; for each country
   * its series (the dictionary `country_data`, keyed by exactly those
   * countries); and all timestamps sorted.
   */
  method ParseData(data: seq<Entry>) returns (countries: seq<string>, countryData: map<string, Series>, dates: seq<int>)
    ensures StrictlySorted(countries)
    ensures forall c :: c in countries <==> exists i :: 0 <= i < |data| && c in data[i].rawResults
    ensures countryData.Keys == AllCountries(data)
    ensures forall c :: c in countryData ==> countryData[c] == SeriesOf(data, c)
    ensures dates == SortAscending(Timestamps(data))
  {
    var all, stamps := ScanEntries(data);
    countries := SortedStrings(all);
    countryData := FillSeries(data, countries, all);
    dates := SortAscending(stamps);
  }

  /** The first loop of `parse_data`: the union of the country keys and the list of timestamps. */
  method ScanEntries(data: seq<Entry>) returns (all: set<string>, stamps: seq<int>)
    ensures all == AllCountries(data)
    ensures stamps == Timestamps(data)
  {
    all := {};
    stamps := [];
    for i := 0 to |data|
      invariant all == AllCountries(data[..i])
      invariant stamps == Timestamps(data[..i])
    {
      assert data[..i + 1][..i] == data[..i];
      all := all + data[i].rawResults.Keys;
      stamps := stamps + [data[i].timestamp];
    }
    TakeAll(data);
  }

  /** The second loop of `parse_data`: every entry's points appended to the series of its countries. */
  method FillSeries(data: seq<Entry>, countries: seq<string>, all: set<string>) returns (countryData: map<string, Series>)
    requires StrictlySorted(countries)
    requires forall c :: c in countries <==> c in all
    ensures countryData.Keys == all
    ensures forall c :: c in countryData ==> countryData[c] == SeriesOf(data, c)
  {
    countryData := map c | c in all :: EmptySeries;
    for i := 0 to |data|
      invariant countryData.Keys == all
      invariant forall c :: c in countryData ==> countryData[c] == SeriesOf(data[..i], c)
    {
      assert data[..i + 1][..i] == data[..i];
      countryData := AddEntry(countries, countryData, data[..i + 1]);
    }
    TakeAll(data);
  }

  /** The inner loop of `parse_data`: each country of the entry gets the entry's point appended. */
  method AddEntry(countries: seq<string>, table: map<string, Series>, upto: seq<Entry>) returns (r: map<string, Series>)
    requires upto != []
    requires StrictlySorted(countries)
    requires forall c :: c in table <==> c in countries
    requires forall c :: c in table ==> table[c] == SeriesOf(upto[..|upto| - 1], c)
    ensures r.Keys == table.Keys
    ensures forall c :: c in r ==> r[c] == SeriesOf(upto, c)
  {
    var e := upto[|upto| - 1];
    r := table;
    for j := 0 to |countries|
      invariant r.Keys == table.Keys
      invariant forall c :: c in r ==> r[c] == (if c in countries[..j] then SeriesOf(upto, c) else table[c])
    {
      var c := countries[j];
      assert c !in countries[..j] by {
        forall k | 0 <= k < j ensures countries[k] != c {
          StrLessIrreflexive(c);
        }
      }
      TakeSnoc(countries, j);
      if c in e.rawResults {
        r := r[c := Extend(r[c], e.timestamp, e.rawResults[c])];
      }
    }
    TakeAll(countries);
  }

  // ---------------------------------------------------------------------
  // Top ranking changes (notification)

  /** A country, how far its Standard rank moved between its last two points, and its latest rank. */
  datatype Change = Change(country: string, change: int, rank: int)

  function Abs(x: int): (r: int)
    ensures r >= 0 && (r == x || r == -x)
  {
    if x < 0 then -x else x
  }

  /** The change record of a series with at least two Standard ranks. */
  function ChangeOf(country: string, standard: seq<int>): (r: Change)
    requires |standard| >= 2
    ensures r.country == country && r.rank == standard[|standard| - 1]
    ensures r.change >= 0
    ensures r.change == standard[|standard| - 1] - standard[|standard| - 2]
         || r.change == standard[|standard| - 2] - standard[|standard| - 1]
  {
    Change(country, Abs(standard[|standard| - 1] - standard[|standard| - 2]), standard[|standard| - 1])
  }

  /** The candidate list: one change record per country (in order) having at least two Standard ranks. */
  function Candidates(countries: seq<string>, table: map<string, Series>): (r: seq<Change>)
    requires forall c :: c in countries ==> c in table
    ensures forall x :: x in r ==>
      x.country in countries && |table[x.country].standard| >= 2 && x == ChangeOf(x.country, table[x.country].standard)
    ensures forall c :: c in countries && |table[c].standard| >= 2 ==> ChangeOf(c, table[c].standard) in r
  {
    if countries == [] then []
    else
      var init := countries[..|countries| - 1];
      var c := countries[|countries| - 1];
      assert forall x :: x in init ==> x in countries;
      assert forall x :: x in countries ==> x in init || x == c;
      var s := table[c].standard;
      Candidates(init, table) + (if |s| >= 2 then [ChangeOf(c, s)] else [])
  }

  /** Non-increasing by change. */
  ghost predicate Descending(s: seq<Change>) {
    forall i, j :: 0 <= i < j < |s| ==> s[i].change >= s[j].change
  }

  /** The records whose change equals `v`, in order. */
  function WithChange(s: seq<Change>, v: int): (r: seq<Change>)
    ensures forall x :: x in r ==> x in s && x.change == v
  {
    if s == [] then []
    else (if s[0].change == v then [s[0]] else []) + WithChange(s[1..], v)
  }

  /** `x` placed before the first record whose change is not larger than its own. */
  function InsertDescending(x: Change, s: seq<Change>): (r: seq<Change>)
    requires Descending(s)
    ensures Descending(r)
    ensures multiset(r) == multiset(s) + multiset{x}
    ensures r != [] && (r[0] == x || (s != [] && r[0] == s[0]))
  {
    if s == [] || x.change >= s[0].change then [x] + s
    else
      var t := InsertDescending(x, s[1..]);
      ConsTail(s);
      DescendingCons(s[0], t);
      [s[0]] + t
  }

  lemma DescendingCons(x: Change, t: seq<Change>)
    requires Descending(t) && (t != [] ==> x.change >= t[0].change)
    ensures Descending([x] + t)
  {
    forall i, j | 0 <= i < j < |[x] + t|
      ensures ([x] + t)[i].change >= ([x] + t)[j].change
    {
      if i > 0 {
        assert ([x] + t)[i] == t[i - 1];
      }
      assert ([x] + t)[j] == t[j - 1];
    }
  }

  /** `list.sort(key=change, reverse=True)`: stable, largest change first. */
  function SortByChange(s: seq<Change>): (r: seq<Change>)
    ensures Descending(r)
    ensures multiset(r) == multiset(s)
    ensures |r| == |s|
  {
    if s == [] then []
    else
      ConsTail(s);
      InsertDescending(s[0], SortByChange(s[1..]))
  }

  /** Inserting `x` puts it in front of every record with its own change and moves no other record of any change past another. */
  lemma {:induction false} InsertKeepsTies(x: Change, s: seq<Change>, v: int)
    requires Descending(s)
    ensures WithChange(InsertDescending(x, s), v) == (if x.change == v then [x] else []) + WithChange(s, v)
  {
    if s == [] || x.change >= s[0].change {
      WithChangeCons(x, s, v);
    } else {
      var t := InsertDescending(x, s[1..]);
      var head := if s[0].change == v then [s[0]] else [];
      var mine := if x.change == v then [x] else [];
      InsertKeepsTies(x, s[1..], v);
      WithChangeCons(s[0], t, v);
      WithChangeCons(s[0], s[1..], v);
      ConsTail(s);
      var rest := WithChange(s[1..], v);
      if x.change == v {
        assert head == [];
        EmptyAppend(mine + rest);
        EmptyAppend(rest);
      } else {
        assert mine == [];
        EmptyAppend(rest);
        EmptyAppend(head + rest);
      }
    }
  }

  lemma WithChangeCons(x: Change, s: seq<Change>, v: int)
    ensures WithChange([x] + s, v) == (if x.change == v then [x] else []) + WithChange(s, v)
  {
    ConsRest(x, s);
  }

  /** The sort is stable: records with equal change keep their relative order. */
  lemma {:induction false} SortIsStable(s: seq<Change>, v: int)
    ensures WithChange(SortByChange(s), v) == WithChange(s, v)
  {
    if s != [] {
      SortIsStable(s[1..], v);
      InsertKeepsTies(s[0], SortByChange(s[1..]), v);
    }
  }

  function Min(a: int, b: int): int {
    if a < b then a else b
  }

  /**
   * The top-changes selection of the notification: the candidates in
   * country order, sorted by change (largest first, ties in country
   * order), then the first five.
   */
  method TopChanges(countries: seq<string>, countryData: map<string, Series>) returns (top: seq<Change>)
    requires forall c :: c in countries ==> c in countryData
    ensures top == SortByChange(Candidates(countries, countryData))[..Min(5, |Candidates(countries, countryData)|)]
  {
    var changes: seq<Change> := [];
    for i := 0 to |countries|
      invariant changes == Candidates(countries[..i], countryData)
    {
      assert countries[..i + 1][..i] == countries[..i];
      var standard := countryData[countries[i]].standard;
      if |standard| >= 2 {
        changes := changes + [ChangeOf(countries[i], standard)];
      }
    }
    TakeAll(countries);
    changes := SortByChange(changes);
    top := changes[..Min(5, |changes|)];
  }

  /**
   * What the selection guarantees: at most five records, largest change
   * first, each a candidate; and every candidate left out moved no more
   * than any that was kept.
   */
  lemma TopChangesAreLargest(cands: seq<Change>)
    ensures var top := SortByChange(cands)[..Min(5, |cands|)];
      |top| <= 5 && |top| == Min(5, |cands|)
      && Descending(top)
      && (forall x :: x in top ==> x in cands)
      && forall x, y :: x in cands && x !in top && y in top ==> y.change >= x.change
  {
    var sorted := SortByChange(cands);
    var n := Min(5, |cands|);
    PrefixOfSorted(sorted, cands, n);
  }

  lemma PrefixOfSorted(sorted: seq<Change>, cands: seq<Change>, n: nat)
    requires Descending(sorted) && multiset(sorted) == multiset(cands) && n <= |sorted|
    ensures Descending(sorted[..n])
    ensures forall x :: x in sorted[..n] ==> x in cands
    ensures forall x, y :: x in cands && x !in sorted[..n] && y in sorted[..n] ==> y.change >= x.change
  {
    var top := sorted[..n];
    forall x | x in top ensures x in cands {
      assert x in multiset(sorted);
    }
    forall x, y | x in cands && x !in top && y in top
      ensures y.change >= x.change
    {
      assert x in multiset(sorted);
      var j :| 0 <= j < |sorted| && sorted[j] == x;
      var k :| 0 <= k < |top| && top[k] == y;
      assert forall i :: 0 <= i < n ==> sorted[i] == top[i] && sorted[i] != x;
      assert sorted[k] == y;
    }
  }

  // ---------------------------------------------------------------------
  // File names

  /** The country name used in a graph's file name: every `/` and `\` becomes `_`. */
  function SafeCountry(country: string): (r: string)
    ensures |r| == |country|
    ensures '/' !in r && '\\' !in r
    ensures forall i :: 0 <= i < |country| ==>
      r[i] == (if country[i] == '/' || country[i] == '\\' then '_' else country[i])
  {
    ReplaceChar(ReplaceChar(country, '/', '_'), '\\', '_')
  }
}

=== FILE: records.dfy ===
/**
 * The ranking record shared by the scraper and the sample generator, and the
 * two files it is persisted to: the append-only `rankings.csv` log and the
 * `latest.json` snapshot, which every save replaces wholesale.
 */
module Records {
  import opened Optional

  /** One observation of one Amazon store; timestamps are opaque ordered values. */
  datatype Record = Record(
    timestamp: int,
    store: string,
    storeLabel: string,
    region: string,
    asin: string,
    url: string,
    rankOverall: Option<int>,
    rankConsole: Option<int>,
    consoleCategory: string,
    price: Option<string>,
    currency: string,
    inStock: Option<bool>,
    error: Option<string>)

  /** The fixed CSV column order. */
  const FieldNames: seq<string> := ["timestamp", "store", "label", "region", "asin", "url", "rank_overall",
    "rank_console", "console_category", "price", "currency", "in_stock", "error"]

  /** A line of `rankings.csv`: the header naming `FieldNames`, or one record. */
  datatype CsvLine = Header | Row(record: Record)

  /** The contents of `latest.json`. */
  datatype Snapshot = Snapshot(updatedAt: int, results: seq<Record>)

  function RowsOf(records: seq<Record>): (lines: seq<CsvLine>)
    ensures |lines| == |records|
    ensures forall i :: 0 <= i < |records| ==> lines[i] == Row(records[i])
  {
    if records == [] then [] else [Row(records[0])] + RowsOf(records[1..])
  }

  /** The records a CSV file holds, in file order. */
  function DataRows(lines: seq<CsvLine>): seq<Record> {
    if lines == [] then []
    else (if lines[0].Row? then [lines[0].record] else []) + DataRows(lines[1..])
  }

  /** A log as `save` leaves it: the header first, then only records. */
  ghost predicate WellFormedLog(lines: seq<CsvLine>) {
    |lines| >= 1 && lines[0] == Header && forall i :: 1 <= i < |lines| ==> lines[i].Row?
  }

  /** The log after appending `records`; `None` is a file that does not exist yet. */
  function Appended(file: Option<seq<CsvLine>>, records: seq<Record>): seq<CsvLine> {
    (if file.None? then [Header] else file.value) + RowsOf(records)
  }

  lemma {:induction false} DataRowsConcat(a: seq<CsvLine>, b: seq<CsvLine>)
    ensures DataRows(a + b) == DataRows(a) + DataRows(b)
  {
    if a != [] {
      assert (a + b)[1..] == a[1..] + b;
      DataRowsConcat(a[1..], b);
    } else {
      assert a + b == b;
    }
  }

  lemma {:induction false} DataRowsOfRows(records: seq<Record>)
    ensures DataRows(RowsOf(records)) == records
  {
    if records != [] {
      DataRowsOfRows(records[1..]);
    }
  }

  /**
   * Appending writes the header only to a new file, never rewrites existing
   * lines, and adds the records after the old ones in input order.
   */
  lemma AppendedExtendsLog(file: Option<seq<CsvLine>>, records: seq<Record>)
    requires file.Some? ==> WellFormedLog(file.value)
    ensures WellFormedLog(Appended(file, records))
    ensures file.Some? ==> Appended(file, records)[..|file.value|] == file.value
    ensures DataRows(Appended(file, records)) == (if file.None? then [] else DataRows(file.value)) + records
  {
    var prefix := if file.None? then [Header] else file.value;
    DataRowsConcat(prefix, RowsOf(records));
    DataRowsOfRows(records);
    if file.None? {
      assert DataRows([Header]) == [];
    }
  }

  /** The log after a sequence of saves into a directory that had no log. */
  function LogAfter(batches: seq<seq<Record>>): Option<seq<CsvLine>> {
    if batches == [] then None
    else Some(Appended(LogAfter(batches[..|batches| - 1]), batches[|batches| - 1]))
  }

  function Concat(batches: seq<seq<Record>>): seq<Record> {
    if batches == [] then [] else Concat(batches[..|batches| - 1]) + batches[|batches| - 1]
  }

  /**
   * However many runs append to it, the log has exactly one header, at the
   * top, followed by every record of every run in the order written.
   */
  lemma {:induction false} LogHoldsEveryRun(batches: seq<seq<Record>>)
    requires batches != []
    ensures LogAfter(batches).Some?
    ensures WellFormedLog(LogAfter(batches).value)
    ensures DataRows(LogAfter(batches).value) == Concat(batches)
  {
    var init := batches[..|batches| - 1];
    if init != [] {
      LogHoldsEveryRun(init);
    }
    AppendedExtendsLog(LogAfter(init), batches[|batches| - 1]);
  }

  /** The data directory: `rankings.csv` (absent until first written) and `latest.json`. */
  class DataDir {
    var rankingsCsv: Option<seq<CsvLine>>
    var latestJson: Option<Snapshot>

    constructor ()
      ensures rankingsCsv.None? && latestJson.None?
    {
      rankingsCsv := None;
      latestJson := None;
    }

    /**
     * `save`: append the batch to the log, writing the header only when the
     * log is new, then replace the snapshot by exactly this batch.
     */
    method Save(results: seq<Record>, now: int)
      modifies this
      ensures rankingsCsv == Some(Appended(old(rankingsCsv), results))
      ensures latestJson == Some(Snapshot(now, results))
    {
      var existed := rankingsCsv.Some?;
      var lines: seq<CsvLine>;
      if existed {
        lines := rankingsCsv.value;
      } else {
        lines := [Header];
      }
      lines := lines + RowsOf(results);
      rankingsCsv := Some(lines);
      latestJson := Some(Snapshot(now, results));
    }

    /** The sample generator's write: a fresh log with header and rows, and a new snapshot. */
    method Overwrite(rows: seq<Record>, latest: seq<Record>, now: int)
      modifies this
      ensures rankingsCsv == Some([Header] + RowsOf(rows))
      ensures latestJson == Some(Snapshot(now, latest))
    {
      rankingsCsv := Some([Header] + RowsOf(rows));
      latestJson := Some(Snapshot(now, latest));
    }
  }
}

=== FILE: scraper.dfy ===
/**
 * The Amazon product-page scraper: builds one ranking record per configured
 * store from an already fetched page. The HTML tree is given as plain data:
 * the labelled elements that may carry the best-sellers-rank caption (each
 * with the container that follows it), the links inside that container, the
 * text of the first price span per selector, and the availability block.
 */
module Scraper {
  import opened Optional
  import opened Text
  import opened Records
  import opened Seqs

  /** One store to scrape. `urlTemplate` holds the placeholder `{asin}`. */
  datatype Target = Target(
    key: string,
    storeLabel: string,
    region: string,
    urlTemplate: string,
    asin: string,
    currency: string,
    bsrKw: seq<string>,
    stockKw: seq<string>,
    consoleCat: string)

  /** A link inside the rank container: its stripped text, and the nearest preceding text node containing `#` followed by a digit or comma. */
  datatype Link = Link(text: string, previousRankText: Option<string>)

  /** The `td` (else `span`) following the rank caption: its text joined by spaces, and its links in document order. */
  datatype Container = Container(text: string, links: seq<Link>)

  /** A `th`, `span` or `td` element with a single string child, and the container that follows it. */
  datatype LabelElement = LabelElement(text: string, container: Option<Container>)

  /** The price spans the scraper looks for, in the order it tries them. */
  datatype PriceSelector = PriceWhole | OurPrice | DealPrice | Offscreen

  const PriceSelectors: seq<PriceSelector> := [PriceWhole, OurPrice, DealPrice, Offscreen]

  /**
   * A parsed product page: the labelled elements in document order, the
   * stripped text of the first span matching each price selector that has
   * one, and the text of the `availability` block if there is one.
   */
  datatype Page = Page(labels: seq<LabelElement>, priceSpans: map<PriceSelector, string>, availability: Option<string>)

  /** What the HTTP request produced: a response with its status, or an exception with its message. */
  datatype Fetch = Response(status: int, page: Page) | Raised(message: string)

  const PlaceholderPrefix := "PLACEHOLDER"
  const PlaceholderError := "ASIN not configured"
  const UrlField := "{asin}"

  // ---------------------------------------------------------------------------
  // Configuration

  /** The eighteen stores, in order of console-game market size. */
  const Targets: seq<Target> := [
    Target("amazon_us", "🇺🇸 Amazon US", "North America", "https://www.amazon.com/dp/{asin}", "B0FST4FTPQ", "USD", ["Best Sellers Rank"], ["in stock"], "Video Games"),
    Target("amazon_jp", "🇯🇵 Amazon JP", "Asia", "https://www.amazon.co.jp/dp/{asin}", "PLACEHOLDER_JP", "JPY", ["Amazon 売れ筋ランキング", "Best Sellers Rank"], ["在庫あり", "in stock"], "TVゲーム"),
    Target("amazon_uk", "🇬🇧 Amazon UK", "Europe", "https://www.amazon.co.uk/dp/{asin}", "B0FSF47H8H", "GBP", ["Best Sellers Rank"], ["in stock"], "PC & Video Games"),
    Target("amazon_de", "🇩🇪 Amazon DE", "Europe", "https://www.amazon.de/dp/{asin}", "B0FSSRPFB5", "EUR", ["Bestseller-Rang", "Best Sellers Rank"], ["auf lager", "in stock"], "Games"),
    Target("amazon_fr", "🇫🇷 Amazon FR", "Europe", "https://www.amazon.fr/dp/{asin}", "B0FTFFF5J6", "EUR", ["Classement des meilleures ventes", "Best Sellers Rank"], ["en stock", "in stock"], "Jeux vidéo"),
    Target("amazon_ca", "🇨🇦 Amazon CA", "North America", "https://www.amazon.ca/dp/{asin}", "PLACEHOLDER_CA", "CAD", ["Best Sellers Rank"], ["in stock"], "Video Games"),
    Target("amazon_au", "🇦🇺 Amazon AU", "Oceania", "https://www.amazon.com.au/dp/{asin}", "PLACEHOLDER_AU", "AUD", ["Best Sellers Rank"], ["in stock"], "Video Games"),
    Target("amazon_it", "🇮🇹 Amazon IT", "Europe", "https://www.amazon.it/dp/{asin}", "PLACEHOLDER_IT", "EUR", ["Posizione nella classifica", "Best Sellers Rank"], ["disponibile", "in stock"], "Videogiochi"),
    Target("amazon_es", "🇪🇸 Amazon ES", "Europe", "https://www.amazon.es/dp/{asin}", "PLACEHOLDER_ES", "EUR", ["Posición en los más vendidos", "Best Sellers Rank"], ["en stock", "in stock"], "Videojuegos"),
    Target("amazon_mx", "🇲🇽 Amazon MX", "Latin America", "https://www.amazon.com.mx/dp/{asin}", "PLACEHOLDER_MX", "MXN", ["Lugar en Más vendidos", "Best Sellers Rank"], ["en existencias", "in stock"], "Videojuegos"),
    Target("amazon_br", "🇧🇷 Amazon BR", "Latin America", "https://www.amazon.com.br/dp/{asin}", "PLACEHOLDER_BR", "BRL", ["Posição na categoria", "Best Sellers Rank"], ["em estoque", "in stock"], "Games e Consoles"),
    Target("amazon_in", "🇮🇳 Amazon IN", "Asia", "https://www.amazon.in/dp/{asin}", "PLACEHOLDER_IN", "INR", ["Best Sellers Rank"], ["in stock"], "Video Games"),
    Target("amazon_sg", "🇸🇬 Amazon SG", "Asia", "https://www.amazon.sg/dp/{asin}", "PLACEHOLDER_SG", "SGD", ["Best Sellers Rank"], ["in stock"], "Video Games"),
    Target("amazon_nl", "🇳🇱 Amazon NL", "Europe", "https://www.amazon.nl/dp/{asin}", "PLACEHOLDER_NL", "EUR", ["Bestsellerranglijst", "Best Sellers Rank"], ["op voorraad", "in stock"], "Games"),
    Target("amazon_se", "🇸🇪 Amazon SE", "Europe", "https://www.amazon.se/dp/{asin}", "PLACEHOLDER_SE", "SEK", ["Bästsäljarranking", "Best Sellers Rank"], ["i lager", "in stock"], "Dator och TV-spel"),
    Target("amazon_pl", "🇵🇱 Amazon PL", "Europe", "https://www.amazon.pl/dp/{asin}", "PLACEHOLDER_PL", "PLN", ["Ranking bestsellerów", "Best Sellers Rank"], ["na stanie", "in stock"], "Gry i konsole"),
    Target("amazon_ae", "🇦🇪 Amazon AE", "Middle East", "https://www.amazon.ae/dp/{asin}", "PLACEHOLDER_AE", "AED", ["Best Sellers Rank"], ["in stock"], "Video Games"),
    Target("amazon_tr", "🇹🇷 Amazon TR", "Europe", "https://www.amazon.com.tr/dp/{asin}", "PLACEHOLDER_TR", "TRY", ["En Çok Satanlar", "Best Sellers Rank"], ["stokta var", "in stock"], "Video Oyunları")
  ]

  // ---------------------------------------------------------------------------
  // Record defaults

  /** `template.format(asin=asin)`: every `{asin}` field replaced by the ASIN. */
  function FormatUrl(template: string, asin: string): string
    decreases |template|
  {
    if template == [] then []
    else if StartsWith(template, UrlField) then asin + FormatUrl(template[|UrlField|..], asin)
    else [template[0]] + FormatUrl(template[1..], asin)
  }

  lemma FirstCharDiffers(s: string, p: string)
    requires s != [] && p != [] && s[0] != p[0]
    ensures !StartsWith(s, p)
  {
    if |p| <= |s| {
      assert s[..|p|][0] != p[0];
    }
  }

  /** A template without braces formats to itself. */
  lemma {:induction false} FormatUrlNoField(t: string, asin: string)
    requires '{' !in t && '}' !in t
    ensures FormatUrl(t, asin) == t
    decreases |t|
  {
    if t != [] {
      assert t[0] != UrlField[0];
      FirstCharDiffers(t, UrlField);
      assert '{' !in t[1..] && '}' !in t[1..];
      FormatUrlNoField(t[1..], asin);
    }
  }

  /** The store templates `…/dp/{asin}`: the ASIN lands exactly where the field was. */
  lemma {:induction false} FormatUrlSubstitutes(prefix: string, suffix: string, asin: string)
    requires '{' !in prefix && '{' !in suffix
    requires '}' !in prefix && '}' !in suffix
    ensures FormatUrl(prefix + UrlField + suffix, asin) == prefix + asin + suffix
    decreases |prefix|
  {
    var t := prefix + UrlField + suffix;
    if prefix == [] {
      EmptyAppend(UrlField);
      SplitAppend(UrlField, suffix);
      FormatUrlNoField(suffix, asin);
      EmptyAppend(asin);
    } else {
      DropAppend(prefix, UrlField);
      DropAppend(prefix + UrlField, suffix);
      FirstCharDiffers(t, UrlField);
      assert '{' !in prefix[1..] && '}' !in prefix[1..];
      FormatUrlSubstitutes(prefix[1..], suffix, asin);
      ConsAppend(prefix, asin);
      AppendAssoc([prefix[0]], prefix[1..] + asin, suffix);
    }
  }

  predicate IsPlaceholder(asin: string) {
    StartsWith(asin, PlaceholderPrefix)
  }

  /** The record every scrape starts from: descriptor fields copied, everything measured left empty. */
  function DefaultRecord(cfg: Target, now: int): Record {
    Record(now, cfg.key, cfg.storeLabel, cfg.region, cfg.asin, FormatUrl(cfg.urlTemplate, cfg.asin),
           None, None, cfg.consoleCat, None, cfg.currency, None, None)
  }

  // ---------------------------------------------------------------------------
  // Locating the best-sellers-rank caption

  /** `soup.find(...)` for one keyword: the first labelled element whose string contains it. */
  function FindLabel(labels: seq<LabelElement>, kw: string): (r: Option<LabelElement>)
    ensures r.Some? ==> exists i :: 0 <= i < |labels| && labels[i] == r.value && Contains(labels[i].text, kw) &&
                          forall j :: 0 <= j < i ==> !Contains(labels[j].text, kw)
    ensures r.None? ==> forall i :: 0 <= i < |labels| ==> !Contains(labels[i].text, kw)
  {
    if labels == [] then None
    else if Contains(labels[0].text, kw) then Some(labels[0])
    else
      var r := FindLabel(labels[1..], kw);
      assert r.Some? ==> forall j :: 0 <= j < 1 ==> !Contains(labels[j].text, kw);
      r
  }

  /** The keywords tried in list order; the first one that finds an element decides. */
  function FindBsr(labels: seq<LabelElement>, kws: seq<string>): (r: Option<LabelElement>)
    ensures r.Some? ==> exists i :: 0 <= i < |kws| && FindLabel(labels, kws[i]) == r &&
                          forall j :: 0 <= j < i ==> FindLabel(labels, kws[j]).None?
    ensures r.None? ==> forall i :: 0 <= i < |kws| ==> FindLabel(labels, kws[i]).None?
  {
    if kws == [] then None
    else
      var e := FindLabel(labels, kws[0]);
      if e.Some? then e
      else
        var r := FindBsr(labels, kws[1..]);
        assert forall i :: 0 < i < |kws| ==> kws[i] == kws[1..][i - 1];
        r
  }

  /** Lines 79-83: the loop over the caption keywords with its early `break`. */
  method LocateBsr(labels: seq<LabelElement>, kws: seq<string>) returns (found: Option<LabelElement>)
    ensures found == FindBsr(labels, kws)
  {
    found := None;
    var i := 0;
    while i < |kws|
      invariant 0 <= i <= |kws|
      invariant found.None?
      invariant FindBsr(labels, kws) == FindBsr(labels, kws[i..])
    {
      found := FindLabel(labels, kws[i]);
      if found.Some? {
        return;
      }
      assert kws[i..][1..] == kws[i + 1..];
      i := i + 1;
    }
  }

  // ---------------------------------------------------------------------------
  // `#n` tokens: the pattern `#\s*([\d,]+)`

  predicate IsDigitOrComma(c: char) {
    IsDigit(c) || c == ','
  }

  function SpaceRun(s: string): (n: nat)
    ensures n <= |s|
    ensures forall i :: 0 <= i < n ==> IsSpace(s[i])
    ensures n == |s| || !IsSpace(s[n])
  {
    if s == [] || !IsSpace(s[0]) then 0 else 1 + SpaceRun(s[1..])
  }

  function DigitCommaRun(s: string): (n: nat)
    ensures n <= |s|
    ensures forall i :: 0 <= i < n ==> IsDigitOrComma(s[i])
    ensures n == |s| || !IsDigitOrComma(s[n])
  {
    if s == [] || !IsDigitOrComma(s[0]) then 0 else 1 + DigitCommaRun(s[1..])
  }

  /** A captured token: digits and commas, at least one character. */
  predicate IsRankToken(tok: string) {
    tok != [] && forall i :: 0 <= i < |tok| ==> IsDigitOrComma(tok[i])
  }

  /**
   * The pattern matched at the very start of `s`: the captured group and the
   * length of the whole match. Whitespace is never a digit or comma, so the
   * greedy `\s*` is the only way the match can succeed.
   */
  function MatchAt(s: string): (m: Option<(string, nat)>)
    ensures m.Some? ==> IsRankToken(m.value.0) && 0 < m.value.1 <= |s|
    ensures m.Some? ==> s[0] == '#'
  {
    if s == [] || s[0] != '#' then None
    else
      var k := SpaceRun(s[1..]);
      var n := DigitCommaRun(s[1 + k..]);
      if n == 0 then None else Some((s[1 + k..1 + k + n], 1 + k + n))
  }

  /**
   * Where a match lies: the token is `s[b..e]`, only whitespace separates it
   * from the `#`, and the run of digits and commas ends at `e`. A `#`
   * followed by optional whitespace and then a digit or comma always matches.
   */
  lemma MatchAtSpan(s: string)
    ensures var m := MatchAt(s);
            m.Some? ==>
              var e := m.value.1;
              var b := e - |m.value.0|;
              && 1 <= b
              && s[b..e] == m.value.0
              && (forall i :: 1 <= i < b ==> IsSpace(s[i]))
              && (e == |s| || !IsDigitOrComma(s[e]))
    ensures (s != [] && s[0] == '#' && exists j :: 1 <= j < |s| && IsDigitOrComma(s[j]) && forall i :: 1 <= i < j ==> IsSpace(s[i]))
              ==> MatchAt(s).Some?
  {
  }

  /** `re.findall(r"#\s*([\d,]+)", s)`: every non-overlapping match, left to right. */
  function RankTokens(s: string): (toks: seq<string>)
    ensures forall i :: 0 <= i < |toks| ==> IsRankToken(toks[i])
    decreases |s|
  {
    if s == [] then []
    else match MatchAt(s)
      case Some(m) => [m.0] + RankTokens(s[m.1..])
      case None => RankTokens(s[1..])
  }

  /** `re.search(r"#\s*([\d,]+)", s).group(1)`: the leftmost match. */
  function SearchRank(s: string): (r: Option<string>)
    decreases |s|
  {
    if s == [] then None
    else match MatchAt(s)
      case Some(m) => Some(m.0)
      case None => SearchRank(s[1..])
  }

  /** `SearchRank` finds the leftmost offset at which the pattern matches, and nothing when there is none. */
  lemma {:induction false} SearchRankIsLeftmost(s: string)
    ensures SearchRank(s).Some? ==> exists i :: 0 <= i < |s| && MatchAt(s[i..]).Some? && MatchAt(s[i..]).value.0 == SearchRank(s).value &&
                                       forall j :: 0 <= j < i ==> MatchAt(s[j..]).None?
    ensures SearchRank(s).None? ==> forall i :: 0 <= i < |s| ==> MatchAt(s[i..]).None?
    decreases |s|
  {
    if s != [] {
      DropAll(s);
      if MatchAt(s).None? {
        SearchRankIsLeftmost(s[1..]);
        if SearchRank(s).Some? {
          var i :| 0 <= i < |s[1..]| && MatchAt(s[1..][i..]).Some? && MatchAt(s[1..][i..]).value.0 == SearchRank(s).value &&
                   forall j :: 0 <= j < i ==> MatchAt(s[1..][j..]).None?;
          DropDrop(s, i + 1);
          forall j | 0 <= j < i + 1
            ensures MatchAt(s[j..]).None?
          {
            if j > 0 {
              DropDrop(s, j);
            }
          }
        } else {
          forall i | 0 <= i < |s|
            ensures MatchAt(s[i..]).None?
          {
            if i > 0 {
              DropDrop(s, i);
            }
          }
        }
      }
    }
  }

  /** The first of all the tokens is the one a search finds: `numbers[0]` and `re.search` agree. */
  lemma {:induction false} FirstTokenIsSearch(s: string)
    ensures RankTokens(s) != [] <==> SearchRank(s).Some?
    ensures RankTokens(s) != [] ==> RankTokens(s)[0] == SearchRank(s).value
    decreases |s|
  {
    if s != [] && MatchAt(s).None? {
      FirstTokenIsSearch(s[1..]);
    }
  }

  /** `findall` finds nothing exactly when no offset of the text starts a match. */
  lemma {:induction false} RankTokensEmpty(s: string)
    ensures RankTokens(s) == [] <==> forall i :: 0 <= i < |s| ==> MatchAt(s[i..]).None?
    decreases |s|
  {
    if s != [] {
      DropAll(s);
      if MatchAt(s).None? {
        RankTokensEmpty(s[1..]);
        forall i | 1 <= i < |s|
          ensures s[i..] == s[1..][i - 1..]
        {
          DropDrop(s, i);
        }
      }
    }
  }

  /** `findall` finds nothing at the offsets before `i` where the pattern does not match. */
  lemma {:induction false} RankTokensSkipPrefix(s: string, i: nat)
    requires i <= |s|
    requires forall j {:trigger MatchAt(s[j..])} :: 0 <= j < i ==> MatchAt(s[j..]).None?
    ensures RankTokens(s) == RankTokens(s[i..])
    decreases i
  {
    DropAll(s);
    if i > 0 {
      assert MatchAt(s[0..]).None?;
      RankTokensSkip(s);
      DropDrop(s, i);
      forall j | 0 <= j < i - 1
        ensures MatchAt(s[1..][j..]).None?
      {
        DropDrop(s, j + 1);
        assert MatchAt(s[j + 1..]).None?;
      }
      RankTokensSkipPrefix(s[1..], i - 1);
    }
  }

  /**
   * `findall` scans left to right: the first token is the match at the
   * leftmost matching offset `i`, and the remaining tokens are those of the
   * text after that match.
   */
  lemma RankTokensLeftmost(s: string, i: nat)
    requires i < |s| && MatchAt(s[i..]).Some?
    requires forall j {:trigger MatchAt(s[j..])} :: 0 <= j < i ==> MatchAt(s[j..]).None?
    ensures RankTokens(s) == [MatchAt(s[i..]).value.0] + RankTokens(s[i + MatchAt(s[i..]).value.1..])
  {
    RankTokensSkipPrefix(s, i);
    RankTokensTake(s[i..]);
    var e := MatchAt(s[i..]).value.1;
    assert s[i..][e..] == s[i + e..];
  }

  /** `findall` moves past an offset where the pattern does not match. */
  lemma RankTokensSkip(s: string)
    requires s != [] && MatchAt(s).None?
    ensures RankTokens(s) == RankTokens(s[1..])
  {
  }

  /** `findall` records a match and resumes after its end. */
  lemma RankTokensTake(s: string)
    requires MatchAt(s).Some?
    ensures RankTokens(s) == [MatchAt(s).value.0] + RankTokens(s[MatchAt(s).value.1..])
  {
  }

  /** Text before the first `#` contributes no token. */
  lemma {:induction false} TokensSkipText(a: string, b: string)
    requires '#' !in a
    ensures RankTokens(a + b) == RankTokens(b)
    decreases |a|
  {
    if a == [] {
      EmptyAppend(b);
    } else {
      DropAppend(a, b);
      TokensSkipText(a[1..], b);
    }
  }

  /** A `#` directly followed by a maximal run of digits and commas is one token. */
  lemma TokenAtHash(tok: string, rest: string)
    requires IsRankToken(tok)
    requires rest == [] || !IsDigitOrComma(rest[0])
    ensures RankTokens("#" + tok + rest) == [tok] + RankTokens(rest)
  {
    var s := "#" + tok + rest;
    assert s[1] == tok[0];
    MatchAtSpan(s);
    assert MatchAt(s).Some?;
    assert s[1..1 + |tok|] == tok;
    assert s[1 + |tok|..] == rest;
  }

  /**
   * Two `#` tokens separated by text without `#`: `findall` returns exactly
   * the two tokens, in text order.
   */
  lemma TwoRankTokens(a: string, first: string, b: string, second: string, c: string)
    requires '#' !in a && '#' !in b && '#' !in c
    requires IsRankToken(first) && IsRankToken(second)
    requires b != [] && !IsDigitOrComma(b[0])
    requires c == [] || !IsDigitOrComma(c[0])
    ensures RankTokens(a + ("#" + first + (b + ("#" + second + c)))) == [first, second]
  {
    TokensSkipText(a, "#" + first + (b + ("#" + second + c)));
    TokenAtHash(first, b + ("#" + second + c));
    TokensSkipText(b, "#" + second + c);
    TokenAtHash(second, c);
    TokensSkipText(c, []);
    assert c + [] == c;
  }

  /** A typical rank text: the overall rank and a category rank, in text order. */
  lemma RankTokensExample(text: string)
    requires text == "#1,234 in Video Games (#56 in PC)"
    ensures RankTokens(text) == ["1,234", "56"]
  {
    var b, c := " in Video Games (", " in PC)";
    ExampleSplit(text, b, c);
    ExampleSeparators(b, c);
    TwoRankTokens([], "1,234", b, "56", c);
  }

  /** How the example splits around its two `#` tokens. */
  lemma ExampleSplit(text: string, b: string, c: string)
    requires text == "#1,234 in Video Games (#56 in PC)"
    requires b == " in Video Games (" && c == " in PC)"
    ensures text == [] + ("#" + "1,234" + (b + ("#" + "56" + c)))
  {
  }

  /** The example's separators hold no `#` and do not continue a token. */
  lemma ExampleSeparators(b: string, c: string)
    requires b == " in Video Games (" && c == " in PC)"
    ensures '#' !in b && '#' !in c && !IsDigitOrComma(b[0]) && !IsDigitOrComma(c[0])
    ensures IsRankToken("1,234") && IsRankToken("56")
  {
  }

  /** `int(tok.replace(",", ""))`; `None` is the `ValueError` raised when only commas remain. */
  function TokenValue(tok: string): Option<int> {
    ParseInt(RemoveChar(tok, ','))
  }

  /** A token converts exactly when it holds at least one digit, and then to a non-negative number. */
  lemma TokenValueDefined(tok: string)
    requires IsRankToken(tok)
    ensures TokenValue(tok).Some? <==> exists i :: 0 <= i < |tok| && IsDigit(tok[i])
    ensures TokenValue(tok).Some? ==> TokenValue(tok).value >= 0
    ensures TokenValue(tok).None? ==> RemoveChar(tok, ',') == ""
  {
    var d := RemoveChar(tok, ',');
    CommaFreeDigits(tok);
    if exists i :: 0 <= i < |tok| && IsDigit(tok[i]) {
      var i :| 0 <= i < |tok| && IsDigit(tok[i]);
      assert tok[i] in tok;
      assert d != [];
    }
  }

  /** Removing the commas of a token leaves only digits. */
  lemma CommaFreeDigits(tok: string)
    requires IsRankToken(tok)
    ensures AllDigits(RemoveChar(tok, ','))
  {
    var d := RemoveChar(tok, ',');
    forall i | 0 <= i < |d| ensures IsDigit(d[i]) {
      assert d[i] in d;
    }
  }

  /** The text of Python's `ValueError` for `int(s)`. */
  function IntErrorMessage(s: string): string {
    "invalid literal for int() with base 10: '" + s + "'"
  }

  // ---------------------------------------------------------------------------
  // The console-category rank

  /** `console_cat.lower().split()`. */
  function CategoryWords(consoleCat: string): seq<string> {
    Words(Lower(consoleCat))
  }

  predicate LinkMatches(link: Link, words: seq<string>) {
    ContainsAny(Lower(link.text), words)
  }

  /** The first link whose lower-cased text contains some category word. */
  function FindConsoleLink(links: seq<Link>, words: seq<string>): (r: Option<Link>)
    ensures r.Some? ==> exists i :: 0 <= i < |links| && links[i] == r.value && LinkMatches(links[i], words) &&
                          forall j :: 0 <= j < i ==> !LinkMatches(links[j], words)
    ensures r.None? ==> forall i :: 0 <= i < |links| ==> !LinkMatches(links[i], words)
  {
    if links == [] then None
    else if LinkMatches(links[0], words) then Some(links[0])
    else
      var r := FindConsoleLink(links[1..], words);
      assert forall i :: 0 < i < |links| ==> links[i] == links[1..][i - 1];
      r
  }

  /** Lines 94-101: the loop over the container's links, stopping at the first match. */
  method LocateConsoleLink(links: seq<Link>, words: seq<string>) returns (found: Option<Link>)
    ensures found == FindConsoleLink(links, words)
  {
    var i := 0;
    while i < |links|
      invariant 0 <= i <= |links|
      invariant FindConsoleLink(links, words) == FindConsoleLink(links[i..], words)
    {
      if LinkMatches(links[i], words) {
        return Some(links[i]);
      }
      assert links[i..][1..] == links[i + 1..];
      i := i + 1;
    }
    return None;
  }

  // ---------------------------------------------------------------------------
  // Price and stock

  /** The text of the first selector, in the given order, that has a span. */
  function FirstPrice(sels: seq<PriceSelector>, spans: map<PriceSelector, string>): (r: Option<string>)
    ensures r.Some? ==> exists i :: 0 <= i < |sels| && sels[i] in spans && spans[sels[i]] == r.value &&
                          forall j :: 0 <= j < i ==> sels[j] !in spans
    ensures r.None? ==> forall i :: 0 <= i < |sels| ==> sels[i] !in spans
  {
    if sels == [] then None
    else if sels[0] in spans then Some(spans[sels[0]])
    else
      var r := FirstPrice(sels[1..], spans);
      assert forall i :: 0 < i < |sels| ==> sels[i] == sels[1..][i - 1];
      r
  }

  /** Lines 104-108: the loop over the price selectors, stopping at the first present one. */
  method LocatePrice(spans: map<PriceSelector, string>) returns (found: Option<string>)
    ensures found == FirstPrice(PriceSelectors, spans)
  {
    var sels := PriceSelectors;
    var i := 0;
    while i < |sels|
      invariant 0 <= i <= |sels|
      invariant FirstPrice(sels, spans) == FirstPrice(sels[i..], spans)
    {
      if sels[i] in spans {
        return Some(spans[sels[i]]);
      }
      assert sels[i..][1..] == sels[i + 1..];
      i := i + 1;
    }
    return None;
  }

  /** `text.replace(",", "").rstrip(".")`. */
  function NormalisePrice(text: string): (p: string)
    ensures ',' !in p
    ensures p == [] || p[|p| - 1] != '.'
    ensures var c := RemoveChar(text, ',');
            |p| <= |c| && p == c[..|p|] && forall k :: |p| <= k < |c| ==> c[k] == '.'
  {
    RStripChar(RemoveChar(text, ','), '.')
  }

  /** A price already normalised is left as it is, so normalising twice is normalising once. */
  lemma NormalisePriceIdempotent(text: string)
    ensures NormalisePrice(NormalisePrice(text)) == NormalisePrice(text)
  {
    var p := NormalisePrice(text);
    assert RemoveChar(p, ',') == p;
  }

  /** The tri-state stock flag: unknown without an availability block, else whether a keyword occurs in its lower-cased text. */
  function StockFlag(availability: Option<string>, stockKw: seq<string>): (r: Option<bool>)
    ensures r.None? <==> availability.None?
    ensures r.Some? ==> (r.value <==> exists k :: k in stockKw && Contains(Lower(availability.value), k))
  {
    match availability
    case None => None
    case Some(t) => Some(ContainsAny(Lower(t), stockKw))
  }

  // ---------------------------------------------------------------------------
  // The whole scrape

  /** `raise_for_status()` raises for client and server errors. */
  predicate RaisesForStatus(status: int) {
    400 <= status < 600
  }

  function HttpErrorMessage(status: int): string {
    "HTTP " + IntToString(status)
  }

  /** Progress through the page: the record so far, and the message of an exception that stopped it. */
  datatype Step = Step(record: Record, raised: Option<string>)

  /** Lines 88-91: the overall rank from the first token, if any. */
  function OverallStep(r: Record, cont: Container): (s: Step)
    ensures s.record == r.(rankOverall := s.record.rankOverall)
  {
    var numbers := RankTokens(cont.text);
    if numbers == [] then Step(r, None)
    else match TokenValue(numbers[0])
      case None => Step(r, Some(IntErrorMessage(RemoveChar(numbers[0], ','))))
      case Some(n) => Step(r.(rankOverall := Some(n)), None)
  }

  /** Lines 93-101: the console rank from the text preceding the first matching link. */
  function ConsoleStep(r: Record, cont: Container, words: seq<string>): (s: Step)
    ensures s.record == r.(rankConsole := s.record.rankConsole)
  {
    match FindConsoleLink(cont.links, words)
    case None => Step(r, None)
    case Some(link) =>
      match link.previousRankText
      case None => Step(r, None)
      case Some(prev) =>
        match SearchRank(prev)
        case None => Step(r, None)
        case Some(tok) =>
          match TokenValue(tok)
          case None => Step(r, Some(IntErrorMessage(RemoveChar(tok, ','))))
          case Some(n) => Step(r.(rankConsole := Some(n)), None)
  }

  /** Lines 86-101: both ranks from the rank container; the console step is skipped once the overall one raised. */
  function RanksStep(r: Record, cont: Container, words: seq<string>): (s: Step)
    ensures s.record == r.(rankOverall := s.record.rankOverall, rankConsole := s.record.rankConsole)
  {
    var s1 := OverallStep(r, cont);
    if s1.raised.Some? then s1 else ConsoleStep(s1.record, cont, words)
  }

  /** Lines 103-114: price and stock, which cannot raise. */
  function PriceAndStock(r: Record, page: Page, cfg: Target): (r': Record)
    ensures r' == r.(price := r'.price, inStock := r'.inStock)
  {
    var price := FirstPrice(PriceSelectors, page.priceSpans);
    var r1 := if price.Some? then r.(price := Some(NormalisePrice(price.value))) else r;
    if page.availability.Some? then r1.(inStock := StockFlag(page.availability, cfg.stockKw)) else r1
  }

  /** The rank container, when the caption was found and something follows it. */
  function RankContainer(page: Page, cfg: Target): Option<Container> {
    var bsr := FindBsr(page.labels, cfg.bsrKw);
    if bsr.Some? then bsr.value.container else None
  }

  /** Everything read from a page served without an error status. */
  function FromPage(r: Record, page: Page, cfg: Target): (r': Record)
    ensures r' == r.(rankOverall := r'.rankOverall, rankConsole := r'.rankConsole, price := r'.price,
                     inStock := r'.inStock, error := r'.error)
  {
    match RankContainer(page, cfg)
    case None => PriceAndStock(r, page, cfg)
    case Some(cont) =>
      var s := RanksStep(r, cont, CategoryWords(cfg.consoleCat));
      if s.raised.Some? then s.record.(error := s.raised) else PriceAndStock(s.record, page, cfg)
  }

  /** The record `scrape` returns for a target, a time and a fetch outcome. */
  function ScrapeOutcome(cfg: Target, now: int, fetch: Fetch): (r: Record)
    ensures r.timestamp == now && r.store == cfg.key && r.storeLabel == cfg.storeLabel && r.region == cfg.region
    ensures r.asin == cfg.asin && r.url == FormatUrl(cfg.urlTemplate, cfg.asin)
    ensures r.consoleCategory == cfg.consoleCat && r.currency == cfg.currency
  {
    var r := DefaultRecord(cfg, now);
    if IsPlaceholder(cfg.asin) then r.(error := Some(PlaceholderError))
    else match fetch
      case Raised(msg) => r.(error := Some(msg))
      case Response(status, page) =>
        if RaisesForStatus(status) then r.(error := Some(HttpErrorMessage(status)))
        else FromPage(r, page, cfg)
  }

  /** Lines 86-101 on the record: the rank fields filled one at a time, stopping at an exception. */
  method ReadRanks(r0: Record, cont: Container, consoleCat: string) returns (s: Step)
    ensures s == RanksStep(r0, cont, CategoryWords(consoleCat))
  {
    s := ReadOverall(r0, cont);
    if s.raised.None? {
      s := ReadConsole(s.record, cont, consoleCat);
    }
  }

  /** Lines 88-91 on the record: the overall rank from the first token. */
  method ReadOverall(r0: Record, cont: Container) returns (s: Step)
    ensures s == OverallStep(r0, cont)
  {
    var r := r0;
    var numbers := RankTokens(cont.text);
    if numbers != [] {
      var v := TokenValue(numbers[0]);
      if v.None? {
        return Step(r, Some(IntErrorMessage(RemoveChar(numbers[0], ','))));
      }
      r := r.(rankOverall := Some(v.value));
    }
    return Step(r, None);
  }

  /** Lines 93-101 on the record: the console rank from the text before the first matching link. */
  method ReadConsole(r0: Record, cont: Container, consoleCat: string) returns (s: Step)
    ensures s == ConsoleStep(r0, cont, CategoryWords(consoleCat))
  {
    var r := r0;
    var catKw := CategoryWords(consoleCat);
    var link := LocateConsoleLink(cont.links, catKw);
    if link.Some? && link.value.previousRankText.Some? {
      var m := SearchRank(link.value.previousRankText.value);
      if m.Some? {
        var v := TokenValue(m.value);
        if v.None? {
          return Step(r, Some(IntErrorMessage(RemoveChar(m.value, ','))));
        }
        r := r.(rankConsole := Some(v.value));
      }
    }
    return Step(r, None);
  }

  /** Lines 78-114 on the record: ranks, then price, then stock; an exception records its message and keeps what was filled. */
  method ReadPage(r0: Record, page: Page, cfg: Target) returns (r: Record)
    ensures r == FromPage(r0, page, cfg)
  {
    r := r0;
    var bsrEl := LocateBsr(page.labels, cfg.bsrKw);
    if bsrEl.Some? && bsrEl.value.container.Some? {
      var s := ReadRanks(r, bsrEl.value.container.value, cfg.consoleCat);
      r := s.record;
      if s.raised.Some? {
        r := r.(error := s.raised);
        return;
      }
    }
    var price := LocatePrice(page.priceSpans);
    if price.Some? {
      r := r.(price := Some(NormalisePrice(price.value)));
    }
    if page.availability.Some? {
      r := r.(inStock := Some(ContainsAny(Lower(page.availability.value), cfg.stockKw)));
    }
  }

  /**
   * `scrape`: start from the default record, stop early for a placeholder
   * ASIN, record a transport exception or an error status, otherwise read
   * the page.
   */
  method Scrape(cfg: Target, now: int, fetch: Fetch) returns (r: Record)
    ensures r == ScrapeOutcome(cfg, now, fetch)
  {
    r := DefaultRecord(cfg, now);
    if IsPlaceholder(cfg.asin) {
      r := r.(error := Some(PlaceholderError));
      return;
    }
    match fetch {
      case Raised(msg) =>
        r := r.(error := Some(msg));
      case Response(status, page) =>
        if RaisesForStatus(status) {
          r := r.(error := Some(HttpErrorMessage(status)));
        } else {
          r := ReadPage(r, page, cfg);
        }
    }
  }

  /**
   * `run` over `targets` (the configured list is `Targets`): scrape every
   * target in order, each with its own fetch outcome and clock reading, then
   * save the whole batch. A failing target only marks its own record.
   */
  method Run(dir: DataDir, targets: seq<Target>, fetches: seq<Fetch>, times: seq<int>, savedAt: int)
    returns (results: seq<Record>)
    requires |fetches| == |targets| && |times| == |targets|
    modifies dir
    ensures |results| == |targets|
    ensures forall i :: 0 <= i < |targets| ==> results[i] == ScrapeOutcome(targets[i], times[i], fetches[i])
    ensures dir.rankingsCsv == Some(Appended(old(dir.rankingsCsv), results))
    ensures dir.latestJson == Some(Snapshot(savedAt, results))
  {
    results := [];
    var i := 0;
    while i < |targets|
      invariant 0 <= i <= |targets|
      invariant |results| == i
      invariant forall k :: 0 <= k < i ==> results[k] == ScrapeOutcome(targets[k], times[k], fetches[k])
      invariant unchanged(dir)
    {
      var r := Scrape(targets[i], times[i], fetches[i]);
      results := results + [r];
      i := i + 1;
    }
    dir.Save(results, savedAt);
  }

  // ---------------------------------------------------------------------------
  // Properties of the outcome

  /** A placeholder ASIN gives the same record whatever the network would have answered: nothing is fetched. */
  lemma PlaceholderSkipsFetch(cfg: Target, now: int, f1: Fetch, f2: Fetch)
    requires IsPlaceholder(cfg.asin)
    ensures ScrapeOutcome(cfg, now, f1) == ScrapeOutcome(cfg, now, f2)
    ensures ScrapeOutcome(cfg, now, f1).error == Some(PlaceholderError)
    ensures var r := ScrapeOutcome(cfg, now, f1);
            r.rankOverall.None? && r.rankConsole.None? && r.price.None? && r.inStock.None?
  {
  }

  /** A transport exception or an error status leaves every measured field empty and names the failure. */
  lemma FetchFailureOutcome(cfg: Target, now: int, fetch: Fetch)
    requires !IsPlaceholder(cfg.asin)
    requires fetch.Raised? || RaisesForStatus(fetch.status)
    ensures var r := ScrapeOutcome(cfg, now, fetch);
            r.rankOverall.None? && r.rankConsole.None? && r.price.None? && r.inStock.None? &&
            r.error == Some(if fetch.Raised? then fetch.message else HttpErrorMessage(fetch.status))
  {
  }

  /**
   * With a rank container on the page, the overall rank is the value of the
   * first `#n` token; with no token it stays empty; a token of commas only
   * raises, which records the error and leaves every other field empty.
   */
  lemma OverallRankFromFirstToken(cfg: Target, now: int, status: int, page: Page)
    requires !IsPlaceholder(cfg.asin) && !RaisesForStatus(status)
    requires RankContainer(page, cfg).Some?
    ensures var r := ScrapeOutcome(cfg, now, Response(status, page));
            var numbers := RankTokens(RankContainer(page, cfg).value.text);
            && (numbers == [] ==> r.rankOverall.None?)
            && (numbers != [] && TokenValue(numbers[0]).Some? ==> r.rankOverall == TokenValue(numbers[0]))
            && (numbers != [] && TokenValue(numbers[0]).None? ==>
                  r.error == Some(IntErrorMessage("")) && r.rankOverall.None? && r.rankConsole.None? &&
                  r.price.None? && r.inStock.None?)
  {
    var cont := RankContainer(page, cfg).value;
    var r0 := DefaultRecord(cfg, now);
    assert ScrapeOutcome(cfg, now, Response(status, page)) == FromPage(r0, page, cfg);
    OverallStepOutcome(r0, cont);
  }

  /** The overall step on a record without ranks: the first token's value, nothing, or the `int('')` error with the record untouched. */
  lemma OverallStepOutcome(r0: Record, cont: Container)
    requires r0.rankOverall.None?
    ensures var s := OverallStep(r0, cont);
            var numbers := RankTokens(cont.text);
            && (numbers == [] ==> s == Step(r0, None))
            && (numbers != [] && TokenValue(numbers[0]).Some? ==> s.raised.None? && s.record.rankOverall == TokenValue(numbers[0]))
            && (numbers != [] && TokenValue(numbers[0]).None? ==> s == Step(r0, Some(IntErrorMessage(""))))
  {
    var numbers := RankTokens(cont.text);
    if numbers != [] {
      TokenValueDefined(numbers[0]);
    }
  }

  /**
   * The console rank is set only from the first link whose text holds a
   * category word, read from the `#n` text preceding that link.
   */
  lemma ConsoleRankFromFirstMatchingLink(cfg: Target, now: int, status: int, page: Page)
    requires !IsPlaceholder(cfg.asin) && !RaisesForStatus(status)
    ensures var r := ScrapeOutcome(cfg, now, Response(status, page));
            r.rankConsole.Some? ==>
              && RankContainer(page, cfg).Some?
              && ConsoleRankFrom(RankContainer(page, cfg).value, CategoryWords(cfg.consoleCat), r.rankConsole.value)
    ensures var r := ScrapeOutcome(cfg, now, Response(status, page));
            forall n ::
              RankContainer(page, cfg).Some?
              && OverallStep(DefaultRecord(cfg, now), RankContainer(page, cfg).value).raised.None?
              && ConsoleRankFrom(RankContainer(page, cfg).value, CategoryWords(cfg.consoleCat), n)
              ==> r.rankConsole == Some(n)
  {
    var r0 := DefaultRecord(cfg, now);
    var r := ScrapeOutcome(cfg, now, Response(status, page));
    assert r == FromPage(r0, page, cfg);
    if RankContainer(page, cfg).Some? {
      var cont := RankContainer(page, cfg).value;
      var words := CategoryWords(cfg.consoleCat);
      var s1 := OverallStep(r0, cont);
      if s1.raised.None? {
        ConsoleStepSetsRank(s1.record, cont, words);
      }
    }
  }

  /** `n` is the value of the `#n` text preceding the first link that holds a category word. */
  predicate ConsoleRankFrom(cont: Container, words: seq<string>, n: int) {
    var link := FindConsoleLink(cont.links, words);
    && link.Some? && link.value.previousRankText.Some?
    && SearchRank(link.value.previousRankText.value).Some?
    && TokenValue(SearchRank(link.value.previousRankText.value).value) == Some(n)
  }

  /**
   * The console step sets a rank exactly from the first matching link: a set
   * rank was read there, and a readable `#n` there is always read.
   */
  lemma ConsoleStepSetsRank(r: Record, cont: Container, words: seq<string>)
    requires r.rankConsole.None?
    ensures var s := ConsoleStep(r, cont, words);
            s.record.rankConsole.Some? ==> ConsoleRankFrom(cont, words, s.record.rankConsole.value)
    ensures var s := ConsoleStep(r, cont, words);
            forall n :: ConsoleRankFrom(cont, words, n) ==> s.raised.None? && s.record.rankConsole == Some(n)
  {
  }

  /** When the console rank raises, the overall rank read just before it is kept in the record. */
  lemma ConsoleErrorKeepsOverallRank(r: Record, cont: Container, words: seq<string>)
    requires OverallStep(r, cont).raised.None?
    requires ConsoleStep(OverallStep(r, cont).record, cont, words).raised.Some?
    ensures RanksStep(r, cont, words).record.rankOverall == OverallStep(r, cont).record.rankOverall
    ensures RanksStep(r, cont, words).record.rankConsole == r.rankConsole
  {
  }

  /** Without an exception on the page, price and stock come from the first present price selector and the availability block. */
  lemma PriceAndStockOutcome(cfg: Target, now: int, status: int, page: Page)
    requires !IsPlaceholder(cfg.asin) && !RaisesForStatus(status)
    ensures var r := ScrapeOutcome(cfg, now, Response(status, page));
            r.error.None? ==>
              && r.inStock == StockFlag(page.availability, cfg.stockKw)
              && (r.price.Some? <==> FirstPrice(PriceSelectors, page.priceSpans).Some?)
              && (r.price.Some? ==> r.price.value == NormalisePrice(FirstPrice(PriceSelectors, page.priceSpans).value))
  {
    var r0 := DefaultRecord(cfg, now);
    assert ScrapeOutcome(cfg, now, Response(status, page)) == FromPage(r0, page, cfg);
  }
}

=== FILE: seqs.dfy ===
/**
 * Small facts about sequences, stated once for any element type so that
 * they are proved without looking inside the elements.
 */
module Seqs {
  lemma ConsTail<T>(s: seq<T>)
    requires s != []
    ensures [s[0]] + s[1..] == s
  {
  }

  lemma ConsRest<T>(x: T, s: seq<T>)
    ensures ([x] + s)[1..] == s
  {
  }

  lemma TakeSnoc<T>(s: seq<T>, j: nat)
    requires j < |s|
    ensures s[..j + 1] == s[..j] + [s[j]]
  {
  }

  lemma TakeAll<T>(s: seq<T>)
    ensures s[..|s|] == s
  {
  }

  lemma EmptyAppend<T>(s: seq<T>)
    ensures [] + s == s
  {
  }

  lemma AppendAssoc<T>(a: seq<T>, b: seq<T>, c: seq<T>)
    ensures a + (b + c) == (a + b) + c
  {
  }

  lemma DropAppend<T>(a: seq<T>, b: seq<T>)
    requires a != []
    ensures (a + b)[0] == a[0] && (a + b)[1..] == a[1..] + b
  {
  }

  lemma SplitAppend<T>(a: seq<T>, b: seq<T>)
    ensures (a + b)[..|a|] == a && (a + b)[|a|..] == b
  {
  }

  lemma ConsAppend<T>(a: seq<T>, b: seq<T>)
    requires a != []
    ensures a + b == [a[0]] + (a[1..] + b)
  {
  }

  lemma DropAll<T>(s: seq<T>)
    ensures s[0..] == s
  {
  }

  lemma DropDrop<T>(s: seq<T>, i: nat)
    requires 1 <= i <= |s|
    ensures s[i..] == s[1..][i - 1..]
  {
  }
}

=== FILE: text.dfy ===
/**
 * String scanning used by the scraper, the SteamSpy normaliser and the
 * plotting helpers: substring search, ASCII case folding, whitespace
 * stripping and splitting, character removal and replacement, and the
 * decimal integer parser that stands in for Python's `int()` on strings.
 */
module Text {
  import opened Optional
  import opened Seqs

  /** Python's `str.isspace()` restricted to ASCII: tab through carriage return, 0x1C-0x1F and space. */
  predicate IsSpace(c: char) {
    c == ' ' || (9 <= c as int <= 13) || (28 <= c as int <= 31)
  }

  predicate IsDigit(c: char) {
    '0' <= c <= '9'
  }

  predicate AllDigits(s: string) {
    forall i :: 0 <= i < |s| ==> IsDigit(s[i])
  }

  predicate StartsWith(s: string, prefix: string) {
    |prefix| <= |s| && s[..|prefix|] == prefix
  }

  /** Python's `needle in s` for strings: `needle` occurs as a contiguous substring. */
  predicate Contains(s: string, needle: string)
    decreases |s|
  {
    StartsWith(s, needle) || (|s| > 0 && Contains(s[1..], needle))
  }

  /** Python's `any(k in s for k in keys)`. */
  predicate ContainsAny(s: string, keys: seq<string>) {
    exists k :: k in keys && Contains(s, k)
  }

  function LowerChar(c: char): char {
    if 'A' <= c <= 'Z' then (c as int + 32) as char else c
  }

  /** `str.lower()` on the ASCII letters; every other character is kept. */
  function Lower(s: string): (r: string)
    ensures |r| == |s|
    ensures forall i :: 0 <= i < |s| ==> r[i] == LowerChar(s[i])
    ensures forall i :: 0 <= i < |r| ==> !('A' <= r[i] <= 'Z')
  {
    if s == [] then [] else [LowerChar(s[0])] + Lower(s[1..])
  }

  /** `s.replace(c, "")` for a one-character `c`: every other character is kept, in order. */
  function RemoveChar(s: string, c: char): (r: string)
    ensures c !in r
    ensures |r| <= |s|
    ensures forall x :: x in r <==> x in s && x != c
    ensures c !in s ==> r == s
  {
    if s == [] then [] else (if s[0] == c then [] else [s[0]]) + RemoveChar(s[1..], c)
  }

  /** Removing a character from a concatenation removes it from each part. */
  lemma {:induction false} RemoveCharConcat(a: string, b: string, c: char)
    ensures RemoveChar(a + b, c) == RemoveChar(a, c) + RemoveChar(b, c)
    decreases |a|
  {
    if a == [] {
      EmptyAppend(b);
    } else {
      RemoveCharFirst(a, b, c);
      RemoveCharConcat(a[1..], b, c);
      var h := if a[0] == c then [] else [a[0]];
      AppendAssoc(h, RemoveChar(a[1..], c), RemoveChar(b, c));
    }
  }

  /** Removing the one occurrence of `c` between two pieces joins the pieces. */
  lemma RemoveCharBetween(a: string, b: string, c: char)
    requires c !in a && c !in b
    ensures RemoveChar(a + [c] + b, c) == a + b
  {
    AppendAssoc(a, [c], b);
    RemoveCharConcat(a, [c] + b, c);
    RemoveCharFirst([c], b, c);
    ConsRest(c, b);
    EmptyAppend(b);
  }

  lemma RemoveCharFirst(a: string, b: string, c: char)
    requires a != []
    ensures RemoveChar(a + b, c) == (if a[0] == c then [] else [a[0]]) + RemoveChar(a[1..] + b, c)
  {
    DropAppend(a, b);
  }

  /** `s.replace(a, b)` for one-character `a` and `b`. */
  function ReplaceChar(s: string, a: char, b: char): (r: string)
    ensures |r| == |s|
    ensures forall i :: 0 <= i < |s| ==> r[i] == (if s[i] == a then b else s[i])
  {
    if s == [] then [] else [if s[0] == a then b else s[0]] + ReplaceChar(s[1..], a, b)
  }

  /** `s.rstrip(c)`: the longest prefix of `s` after which only `c` follows. */
  function RStripChar(s: string, c: char): (r: string)
    ensures |r| <= |s| && r == s[..|r|]
    ensures r == [] || r[|r| - 1] != c
    ensures forall k :: |r| <= k < |s| ==> s[k] == c
  {
    if s == [] || s[|s| - 1] != c then s else RStripChar(s[..|s| - 1], c)
  }

  function LStripSpace(s: string): (r: string)
    ensures |r| <= |s| && r == s[|s| - |r|..]
    ensures r == [] || !IsSpace(r[0])
    ensures forall k :: 0 <= k < |s| - |r| ==> IsSpace(s[k])
  {
    if s == [] || !IsSpace(s[0]) then s else LStripSpace(s[1..])
  }

  function RStripSpace(s: string): (r: string)
    ensures |r| <= |s| && r == s[..|r|]
    ensures r == [] || !IsSpace(r[|r| - 1])
    ensures forall k :: |r| <= k < |s| ==> IsSpace(s[k])
  {
    if s == [] || !IsSpace(s[|s| - 1]) then s else RStripSpace(s[..|s| - 1])
  }

  /** `str.strip()`: whitespace removed from both ends. */
  function Strip(s: string): (r: string)
    ensures |r| <= |s|
    ensures r == [] || (!IsSpace(r[0]) && !IsSpace(r[|r| - 1]))
    ensures forall c :: c in r ==> c in s
    ensures forall c :: c in s && !IsSpace(c) ==> c in r
    ensures s == [] || (!IsSpace(s[0]) && !IsSpace(s[|s| - 1])) ==> r == s
  {
    StripKeepsText(s);
    RStripSpace(LStripSpace(s))
  }

  /** Stripping only drops whitespace: what is left comes from `s`, and every other character of `s` is left. */
  lemma StripKeepsText(s: string)
    ensures forall c :: c in RStripSpace(LStripSpace(s)) ==> c in s
    ensures forall c :: c in s && !IsSpace(c) ==> c in RStripSpace(LStripSpace(s))
  {
    var r := RStripSpace(LStripSpace(s));
    forall c | c in r
      ensures c in s
    {
      var i :| 0 <= i < |r| && r[i] == c;
      StripIndex(s, i);
    }
    forall c | c in s && !IsSpace(c)
      ensures c in r
    {
      var i :| 0 <= i < |s| && s[i] == c;
      StripKeepsIndex(s, i);
    }
  }

  /** Character `i` of the stripped text is character `i` after the leading whitespace of `s`. */
  lemma StripIndex(s: string, i: nat)
    requires i < |RStripSpace(LStripSpace(s))|
    ensures |s| - |LStripSpace(s)| + i < |s|
    ensures RStripSpace(LStripSpace(s))[i] == s[|s| - |LStripSpace(s)| + i]
  {
    var l := LStripSpace(s);
    assert RStripSpace(l)[i] == l[i];
  }

  /** A non-space character of `s` survives stripping, at its place after the leading whitespace. */
  lemma StripKeepsIndex(s: string, i: nat)
    requires i < |s| && !IsSpace(s[i])
    ensures |s| - |LStripSpace(s)| <= i
    ensures i - (|s| - |LStripSpace(s)|) < |RStripSpace(LStripSpace(s))|
    ensures RStripSpace(LStripSpace(s))[i - (|s| - |LStripSpace(s)|)] == s[i]
  {
    var l := LStripSpace(s);
    var d := |s| - |l|;
    assert l[i - d] == s[i];
    var r := RStripSpace(l);
    assert r[i - d] == l[i - d];
  }

  predicate AllSpace(s: string) {
    forall i :: 0 <= i < |s| ==> IsSpace(s[i])
  }

  /** Leading whitespace in front of text that starts with a non-space is removed exactly. */
  lemma {:induction false} LStripPadded(pad: string, t: string)
    requires AllSpace(pad)
    requires t == [] || !IsSpace(t[0])
    ensures LStripSpace(pad + t) == t
    decreases |pad|
  {
    if pad == [] {
      assert pad + t == t;
    } else {
      assert (pad + t)[1..] == pad[1..] + t;
      LStripPadded(pad[1..], t);
    }
  }

  /** Trailing whitespace after text that ends with a non-space is removed exactly. */
  lemma {:induction false} RStripPadded(t: string, pad: string)
    requires AllSpace(pad)
    requires t == [] || !IsSpace(t[|t| - 1])
    ensures RStripSpace(t + pad) == t
    decreases |pad|
  {
    if pad == [] {
      assert t + pad == t;
    } else {
      var p := pad[..|pad| - 1];
      assert (t + pad)[..|t + pad| - 1] == t + p;
      RStripPadded(t, p);
    }
  }

  /** `strip()` of text padded with whitespace on both sides gives the text back. */
  lemma StripPadded(pre: string, t: string, post: string)
    requires AllSpace(pre) && AllSpace(post)
    requires t != [] && !IsSpace(t[0]) && !IsSpace(t[|t| - 1])
    ensures Strip(pre + t + post) == t
  {
    assert pre + t + post == pre + (t + post);
    LStripPadded(pre, t + post);
    RStripPadded(t, post);
  }

  /** The leading run of non-whitespace characters. */
  function WordPrefix(s: string): (w: string)
    ensures |w| <= |s| && w == s[..|w|]
    ensures forall i :: 0 <= i < |w| ==> !IsSpace(w[i])
    ensures |w| == |s| || IsSpace(s[|w|])
  {
    if s == [] || IsSpace(s[0]) then [] else [s[0]] + WordPrefix(s[1..])
  }

  /** A non-empty string without whitespace. */
  predicate IsWord(w: string) {
    w != [] && forall j :: 0 <= j < |w| ==> !IsSpace(w[j])
  }

  /** `str.split()` with no argument: the maximal runs of non-whitespace characters. */
  function Words(s: string): (ws: seq<string>)
    ensures forall i :: 0 <= i < |ws| ==> IsWord(ws[i])
    decreases |s|
  {
    if s == [] then []
    else if IsSpace(s[0]) then Words(s[1..])
    else
      var w := WordPrefix(s);
      assert w[0] == s[0];
      [w] + Words(s[|w|..])
  }

  /** Value of a run of ASCII digits, most significant first. */
  function DigitsValue(s: string): (n: nat)
    requires AllDigits(s)
  {
    if s == [] then 0 else DigitsValue(s[..|s| - 1]) * 10 + (s[|s| - 1] as int - '0' as int)
  }

  /** A non-empty run of ASCII digits, read as a natural number. */
  function ParseDigits(s: string): (r: Option<nat>)
    ensures r.Some? <==> s != [] && AllDigits(s)
  {
    if s != [] && AllDigits(s) then Some(DigitsValue(s)) else None
  }

  /**
   * Python's `int(s)` for base-10 strings: surrounding whitespace, an
   * optional sign, then at least one ASCII digit. `None` stands for the
   * `ValueError` Python raises.
   */
  function ParseInt(s: string): (r: Option<int>)
    ensures AllDigits(s) && s != [] ==> r == Some(DigitsValue(s))
    ensures r.Some? ==> exists i :: 0 <= i < |s| && IsDigit(s[i])
    ensures r.Some? ==> forall c :: c in s ==> IsDigit(c) || IsSpace(c) || c == '-' || c == '+'
  {
    var t := Strip(s);
    var r := SignedDigits(t);
    if AllDigits(s) && s != [] then
      assert IsDigit(s[0]) && IsDigit(s[|s| - 1]);
      r
    else if r.Some? then
      SignedDigitsChars(s, t);
      r
    else r
  }

  /** An optional sign followed by at least one ASCII digit, read as an integer. */
  function SignedDigits(t: string): (r: Option<int>)
    ensures r.Some? <==> t != [] && (IsDigit(t[0]) || t[0] == '-' || t[0] == '+') && AllDigits(t[1..]) && exists i :: 0 <= i < |t| && IsDigit(t[i])
    ensures AllDigits(t) && t != [] ==> r == Some(DigitsValue(t))
  {
    if t != [] && (t[0] == '-' || t[0] == '+') then
      match ParseDigits(t[1..])
      case Some(n) =>
        assert IsDigit(t[1..][0]);
        Some(if t[0] == '-' then -(n as int) else n as int)
      case None => None
    else
      match ParseDigits(t)
      case Some(n) =>
        assert AllDigits(t[1..]) by { assert forall j :: 0 <= j < |t[1..]| ==> t[1..][j] == t[j + 1]; }
        Some(n)
      case None => None
  }

  /** When the stripped text is digits after an optional sign, the text holds a digit and only digits, whitespace and signs. */
  lemma SignedDigitsChars(s: string, t: string)
    requires t == Strip(s) && SignedDigits(t).Some?
    ensures exists i :: 0 <= i < |s| && IsDigit(s[i])
    ensures forall c :: c in s ==> IsDigit(c) || IsSpace(c) || c == '-' || c == '+'
  {
    var k :| 0 <= k < |t| && IsDigit(t[k]);
    assert t[k] in s;
    forall c | c in s && !IsSpace(c)
      ensures IsDigit(c) || c == '-' || c == '+'
    {
      var i :| 0 <= i < |t| && t[i] == c;
      if i > 0 {
        assert t[1..][i - 1] == c;
      }
    }
  }

  /** Text without any digit is not an integer. */
  lemma NoDigitNoInt(t: string)
    requires forall c :: c in t ==> !IsDigit(c)
    ensures ParseInt(t).None?
  {
  }

  /** Text holding a character that is neither a digit, whitespace nor a sign is not an integer. */
  lemma StrayCharNoInt(t: string, c: char)
    requires c in t && !IsDigit(c) && !IsSpace(c) && c != '-' && c != '+'
    ensures ParseInt(t).None?
  {
  }

  function DigitChar(d: nat): char
    requires d < 10
  {
    ('0' as int + d) as char
  }

  /** Decimal spelling of a natural number, without leading zeros. */
  function NatToString(n: nat): (s: string)
    ensures s != [] && AllDigits(s)
  {
    if n < 10 then [DigitChar(n)] else NatToString(n / 10) + [DigitChar(n % 10)]
  }

  /** Python's `str(n)` / f-string formatting of an integer. */
  function IntToString(n: int): string {
    if n < 0 then "-" + NatToString(-n) else NatToString(n)
  }

  /** Reading back what `NatToString` wrote gives the number. */
  lemma {:induction false} NatToStringRoundTrip(n: nat)
    ensures ParseDigits(NatToString(n)) == Some(n)
  {
    if n >= 10 {
      NatToStringRoundTrip(n / 10);
      var s := NatToString(n);
      assert s[..|s| - 1] == NatToString(n / 10);
      assert DigitsValue(s[..|s| - 1]) == n / 10;
      assert s[|s| - 1] == DigitChar(n % 10);
      assert DigitsValue(s) == (n / 10) * 10 + n % 10;
    } else {
      var s := NatToString(n);
      assert s == [DigitChar(n)] && s[..0] == [];
      assert DigitsValue(s) == n;
    }
  }
}

=== FILE: tracker.dfy ===
/**
 * The SteamSpy collector of the pre-launch monitor: the reply's `owners`
 * field is turned into one integer (used as a stand-in for the wishlist
 * count), and the monitor stores it as a metric row when it is a
 * non-negative integer.
 */
module Tracker {
  import opened Optional
  import opened Text

  const SteamAppId := "3321460"

  /**
   * The JSON value found under `owners`. JSON integers (and booleans, which
   * Python treats as integers) are `OwnersInt`; strings are `OwnersStr`;
   * every other JSON value is represented by its Python `str()` spelling.
   */
  datatype OwnersValue = OwnersInt(n: int) | OwnersStr(s: string) | OwnersOther(repr: string)

  /** The decoded body of a 200 reply: a JSON object (with or without `owners`) or any other JSON value. */
  datatype Payload = JsonObject(owners: Option<OwnersValue>) | NotAnObject

  /** What the HTTP request produced: a status with a decoded body, or an exception (network error, undecodable JSON). */
  datatype SteamSpyReply = Reply(status: int, payload: Payload) | Failed(message: string)

  /** Python's `str(owners)` for a value that is not an integer. */
  function PyStr(v: OwnersValue): string
    requires !v.OwnersInt?
  {
    match v
    case OwnersStr(s) => s
    case OwnersOther(repr) => repr
  }

  /** Python's `s.split("..")`: the pieces between non-overlapping occurrences of `..`, scanned from the left. */
  function SplitDots(s: string): (parts: seq<string>)
    ensures |parts| >= 1
    decreases |s|
  {
    if |s| < 2 then [s]
    else if s[..2] == ".." then [""] + SplitDots(s[2..])
    else
      var rest := SplitDots(s[1..]);
      [[s[0]] + rest[0]] + rest[1..]
  }

  /** One side of a range: whitespace stripped first, then commas removed, then read as an integer. */
  function RangeBound(part: string): Option<int> {
    ParseInt(RemoveChar(Strip(part), ','))
  }

  /** Python's `(low + high) // 2`: the floor of the mean. */
  function FloorMidpoint(low: int, high: int): (m: int)
    ensures 2 * m <= low + high < 2 * m + 2
  {
    (low + high) / 2
  }

  /** Case 2 of the triage: the value's text with every comma removed and whitespace stripped, read as an integer. */
  function WholeReading(text: string): Option<int> {
    ParseInt(Strip(RemoveChar(text, ',')))
  }

  /**
   * Case 3 of the triage: a string holding `..` that splits into exactly
   * two pieces, both readable as bounds, gives the floor of their mean.
   */
  function RangeReading(s: string): (r: Option<int>)
  {
    if Contains(s, "..") then
      var parts := SplitDots(s);
      if |parts| == 2 then
        var low := RangeBound(parts[0]);
        var high := RangeBound(parts[1]);
        if low.Some? && high.Some? then Some(FloorMidpoint(low.value, high.value)) else None
      else None
    else None
  }

  /**
   * `get_wishlist_count`'s triage of the `owners` value: an integer as it
   * is; otherwise its text read as a whole; otherwise, for a string, its
   * reading as a range; otherwise 0.
   */
  function NormaliseOwners(v: OwnersValue): (n: int)
    ensures v.OwnersInt? ==> n == v.n
    ensures !v.OwnersInt? && WholeReading(PyStr(v)).Some? ==> n == WholeReading(PyStr(v)).value
    ensures n != 0 ==> v.OwnersInt? || WholeReading(PyStr(v)).Some? || (v.OwnersStr? && RangeReading(v.s).Some?)
  {
    if v.OwnersInt? then v.n
    else
      match WholeReading(PyStr(v))
      case Some(k) => k
      case None =>
        if v.OwnersStr? then RangeReading(v.s).GetOr(0) else 0
  }

  /** Every character of a piece of the split occurs in the split string. */
  lemma {:induction false} PartCharsInSource(s: string, part: string, c: char)
    requires part in SplitDots(s)
    requires c in part
    ensures c in s
    decreases |s|
  {
    if |s| < 2 {
    } else if s[..2] == ".." {
      PartCharsInSource(s[2..], part, c);
    } else {
      var rest := SplitDots(s[1..]);
      if part == [s[0]] + rest[0] {
        if c != s[0] {
          PartCharsInSource(s[1..], rest[0], c);
        }
      } else {
        PartCharsInSource(s[1..], part, c);
      }
    }
  }

  /** Text without digits has no whole reading. */
  lemma NoDigitNoWholeReading(s: string)
    requires forall c :: c in s ==> !IsDigit(c)
    ensures WholeReading(s).None?
  {
    NoDigitNoInt(Strip(RemoveChar(s, ',')));
  }

  /** Text without digits is no range bound. */
  lemma NoDigitNoBound(s: string)
    requires forall c :: c in s ==> !IsDigit(c)
    ensures RangeBound(s).None?
  {
    NoDigitNoInt(RemoveChar(Strip(s), ','));
  }

  /** A value whose text holds no digit at all (and which is not an integer) becomes 0. */
  lemma NoDigitOwnersIsZero(v: OwnersValue)
    requires !v.OwnersInt?
    requires forall c :: c in PyStr(v) ==> !IsDigit(c)
    ensures NormaliseOwners(v) == 0
  {
    var s := PyStr(v);
    NoDigitNoWholeReading(s);
    if v.OwnersStr? {
      assert RangeReading(s).None? by {
        var parts := SplitDots(s);
        if |parts| == 2 {
          forall c | c in parts[0] ensures !IsDigit(c) {
            PartCharsInSource(s, parts[0], c);
          }
          NoDigitNoBound(parts[0]);
        }
      }
    }
  }

  /**
   * `get_wishlist_count`: a reply that failed, a status other than 200 or a
   * body that is not a JSON object give 0; a missing `owners` key counts as
   * the integer 0; otherwise the owners value is normalised.
   */
  function GetWishlistCount(reply: SteamSpyReply): (count: int)
    ensures count != 0 ==>
      reply.Reply? && reply.status == 200 && reply.payload.JsonObject? && reply.payload.owners.Some?
      && count == NormaliseOwners(reply.payload.owners.value)
    ensures reply.Reply? && reply.status == 200 && reply.payload.JsonObject? ==>
      count == NormaliseOwners(reply.payload.owners.GetOr(OwnersInt(0)))
  {
    match reply
    case Failed(_) => 0
    case Reply(status, payload) =>
      if status != 200 then 0
      else
        match payload
        case NotAnObject => 0
        case JsonObject(owners) =>
          NormaliseOwners(owners.GetOr(OwnersInt(0)))
  }

  // ---------------------------------------------------------------------
  // Properties of the owners triage

  /** A string without `..` is split into itself alone. */
  lemma {:induction false} SplitWithoutDots(s: string)
    requires '.' !in s
    ensures SplitDots(s) == [s]
    decreases |s|
  {
    if |s| >= 2 {
      assert s[0] in s;
      assert s[..2] != "..";
      assert '.' !in s[1..] by {
        forall c | c in s[1..] ensures c in s { }
      }
      SplitWithoutDots(s[1..]);
      assert [s[0]] + s[1..] == s;
    }
  }

  /** A leading piece without dots is the first part, and splitting continues after the separator. */
  lemma {:induction false} SplitAfterPiece(a: string, rest: string)
    requires '.' !in a
    ensures SplitDots(a + ".." + rest) == [a] + SplitDots(rest)
    decreases |a|
  {
    if a == [] {
      assert a + ".." + rest == ".." + rest;
      assert (".." + rest)[..2] == "..";
      assert (".." + rest)[2..] == rest;
    } else {
      var s := a + ".." + rest;
      assert a[0] in a;
      assert s[0] == a[0] && s[..2] != "..";
      assert '.' !in a[1..] by {
        forall c | c in a[1..] ensures c in a { }
      }
      SplitAfterPiece(a[1..], rest);
      assert s[1..] == a[1..] + ".." + rest;
      assert [s[0]] + a[1..] == a;
    }
  }

  lemma SplitRange(low: string, high: string)
    requires '.' !in low && '.' !in high
    ensures SplitDots(low + ".." + high) == [low, high]
  {
    SplitAfterPiece(low, high);
    SplitWithoutDots(high);
  }

  lemma {:induction false} ContainsSeparator(low: string, high: string)
    ensures Contains(low + ".." + high, "..")
    decreases |low|
  {
    var s := low + ".." + high;
    if low == [] {
      assert s[..2] == "..";
    } else {
      ContainsSeparator(low[1..], high);
      assert s[1..] == low[1..] + ".." + high;
    }
  }

  /** The whole-string reading fails on a string holding a dot. */
  lemma DotBlocksInteger(s: string)
    requires '.' in s
    ensures WholeReading(s) == None
  {
    assert '.' in RemoveChar(s, ',');
    StrayCharNoInt(Strip(RemoveChar(s, ',')), '.');
  }

  /** A string of digits and commas loses its commas and keeps its digits, first and last included. */
  lemma CommasRemoved(body: string)
    requires body != [] && IsDigit(body[0]) && IsDigit(body[|body| - 1])
    requires forall i :: 0 <= i < |body| ==> IsDigit(body[i]) || body[i] == ','
    ensures AllDigits(RemoveChar(body, ','))
    ensures RemoveChar(body, ',') != []
    ensures !IsSpace(RemoveChar(body, ',')[0]) && !IsSpace(RemoveChar(body, ',')[|RemoveChar(body, ',')| - 1])
  {
    var d := RemoveChar(body, ',');
    forall i | 0 <= i < |d| ensures IsDigit(d[i]) {
      assert d[i] in body;
    }
    assert body[0] in d;
  }

  /** Whitespace padding carries no comma, so removing commas leaves it in place. */
  lemma PaddingKeepsPlace(pre: string, body: string, post: string)
    requires AllSpace(pre) && AllSpace(post)
    ensures RemoveChar(pre + body + post, ',') == pre + RemoveChar(body, ',') + post
  {
    assert ',' !in pre && ',' !in post;
    RemoveCharConcat(pre + body, post, ',');
    RemoveCharConcat(pre, body, ',');
  }

  /**
   * A numeric string: digits with commas, neither first nor last character
   * a comma, padded with whitespace, reads as the value of its digits.
   */
  lemma NumericStringOwners(pre: string, body: string, post: string)
    requires AllSpace(pre) && AllSpace(post)
    requires body != [] && IsDigit(body[0]) && IsDigit(body[|body| - 1])
    requires forall i :: 0 <= i < |body| ==> IsDigit(body[i]) || body[i] == ','
    ensures AllDigits(RemoveChar(body, ','))
    ensures NormaliseOwners(OwnersStr(pre + body + post)) == DigitsValue(RemoveChar(body, ','))
  {
    var d := RemoveChar(body, ',');
    CommasRemoved(body);
    PaddingKeepsPlace(pre, body, post);
    StripPadded(pre, d, post);
  }

  /**
   * A `low .. high` range whose two sides read as integers (after
   * stripping whitespace and removing commas) gives their floor midpoint.
   */
  lemma RangeReadingOf(low: string, high: string, lo: int, hi: int)
    requires '.' !in low && '.' !in high
    requires RangeBound(low) == Some(lo) && RangeBound(high) == Some(hi)
    ensures RangeReading(low + ".." + high) == Some(FloorMidpoint(lo, hi))
  {
    var s := low + ".." + high;
    ContainsSeparator(low, high);
    SplitRange(low, high);
    var parts := SplitDots(s);
    assert parts[0] == low && parts[1] == high;
    assert RangeBound(parts[0]) == Some(lo);
    assert RangeBound(parts[1]) == Some(hi);
  }

  lemma RangeOwners(low: string, high: string, lo: int, hi: int)
    requires '.' !in low && '.' !in high
    requires RangeBound(low) == Some(lo) && RangeBound(high) == Some(hi)
    ensures NormaliseOwners(OwnersStr(low + ".." + high)) == FloorMidpoint(lo, hi)
  {
    var s := low + ".." + high;
    assert WholeReading(s) == None by {
      assert s[|low|] == '.';
      DotBlocksInteger(s);
    }
    RangeReadingOf(low, high, lo, hi);
  }

  lemma ExampleLowStrip()
    ensures Strip("0 ") == "0"
  {
  }

  lemma ExampleLowValue()
    ensures ParseInt(RemoveChar("0", ',')) == Some(0)
  {
    assert ',' !in "0";
    assert AllDigits("0");
    assert DigitsValue("0") == 0 by {
      assert "0"[..0] == [];
    }
  }

  lemma ExampleHighStrip()
    ensures Strip(" 20,000") == "20,000"
  {
    assert " 20,000"[1..] == "20,000";
    assert LStripSpace(" 20,000") == "20,000";
  }

  lemma ExampleHighCommas()
    ensures RemoveChar("20,000", ',') == "20000"
  {
    assert "20,000" == "20" + [','] + "000";
    RemoveCharBetween("20", "000", ',');
    assert "20" + "000" == "20000";
  }

  lemma ExampleJoin()
    ensures "0 " + ".." + " 20,000" == "0 .. 20,000"
  {
  }

  lemma ExampleHighDigits()
    ensures DigitsValue("20000") == 20000
  {
    assert "20000"[..4] == "2000" && "2000"[..3] == "200";
    assert "200"[..2] == "20" && "20"[..1] == "2" && "2"[..0] == "";
  }

  lemma ExampleHighAllDigits()
    ensures AllDigits("20000") && "20000" != []
  {
  }

  lemma ExampleHighValue()
    ensures ParseInt("20000") == Some(20000)
  {
    ExampleHighDigits();
    ExampleHighAllDigits();
  }

  lemma ExampleSides()
    ensures '.' !in "0 " && '.' !in " 20,000"
  {
  }

  /** The example from the collector's documentation: `"0 .. 20,000"` gives 10000. */
  lemma DocumentedRangeExample()
    ensures NormaliseOwners(OwnersStr("0 .. 20,000")) == 10000
  {
    ExampleLowStrip();
    ExampleLowValue();
    ExampleHighStrip();
    ExampleHighCommas();
    ExampleHighValue();
    ExampleSides();
    ExampleJoin();
    RangeOwners("0 ", " 20,000", 0, 20000);
  }

  /**
   * A non-string JSON value whose text holds a dot, such as the float
   * `15000.0`, makes `int()` raise and becomes 0: the count is dropped.
   */
  lemma FloatOwnersIsZero(repr: string)
    requires '.' in repr
    ensures NormaliseOwners(OwnersOther(repr)) == 0
  {
    DotBlocksInteger(repr);
  }

  /** A string with a dot but no `..`, such as `"15000.0"`, is neither a whole number nor a range: 0. */
  lemma DottedStringOwnersIsZero(s: string)
    requires '.' in s && !Contains(s, "..")
    ensures NormaliseOwners(OwnersStr(s)) == 0
  {
    DotBlocksInteger(s);
  }

  /** More than one `..` separator: the two-way unpacking fails and the value becomes 0. */
  lemma ThreePartRangeIsZero(a: string, b: string, c: string)
    requires '.' !in a && '.' !in b && '.' !in c
    ensures NormaliseOwners(OwnersStr(a + ".." + (b + ".." + c))) == 0
  {
    var s := a + ".." + (b + ".." + c);
    assert WholeReading(s) == None by {
      assert s[|a|] == '.';
      DotBlocksInteger(s);
    }
    assert |SplitDots(s)| == 3 by {
      SplitAfterPiece(a, b + ".." + c);
      SplitRange(b, c);
    }
  }

  /** A range with a side that does not read as an integer becomes 0. */
  lemma UnreadableRangeIsZero(low: string, high: string)
    requires '.' !in low && '.' !in high
    requires RangeBound(low).None? || RangeBound(high).None?
    ensures NormaliseOwners(OwnersStr(low + ".." + high)) == 0
  {
    var s := low + ".." + high;
    assert WholeReading(s) == None by {
      assert s[|low|] == '.';
      DotBlocksInteger(s);
    }
    SplitRange(low, high);
  }

  // ---------------------------------------------------------------------
  // The metric store and the collector

  /** One row of the `metrics` table, without the identifier and creation time the database assigns. */
  datatype MetricSnapshot = MetricSnapshot(timestamp: int, platform: string, metricType: string, value: int, metadata: string)

  /** The metadata stored with a Steam metric: `json.dumps` of the app id and the source tag. */
  const SteamMetadata := "{\"app_id\": \"" + SteamAppId + "\", \"source\": \"steamspy_estimate\"}"

  function SteamMetric(timestamp: int, count: int): (m: MetricSnapshot)
    ensures m.platform == "Steam" && m.metricType == "wishlist" && m.value == count && m.timestamp == timestamp
  {
    MetricSnapshot(timestamp, "Steam", "wishlist", count, SteamMetadata)
  }

  /** The `metrics` table: rows in insertion order. */
  class MetricsDb {
    var rows: seq<MetricSnapshot>

    constructor ()
      ensures rows == []
    {
      rows := [];
    }

    /** `save_metric`: inserts exactly one row with the metric's five fields; existing rows are untouched. */
    method SaveMetric(metric: MetricSnapshot)
      modifies this
      ensures rows == old(rows) + [metric]
      ensures |rows| == |old(rows)| + 1 && rows[..|old(rows)|] == old(rows)
    {
      rows := rows + [metric];
    }
  }

  /** The monitor's Steam step; the timestamp is passed in instead of read from the clock. */
  class Monitor {
    const db: MetricsDb

    constructor (db: MetricsDb)
      ensures this.db == db
    {
      this.db := db;
    }

    /**
     * `collect_steam_metrics`: the count is stored only when it is
     * non-negative, and the reply is always `{"wishlist_count": count}`.
     */
    method CollectSteamMetrics(reply: SteamSpyReply, now: int) returns (result: map<string, int>)
      modifies db
      ensures result == map["wishlist_count" := GetWishlistCount(reply)]
      ensures GetWishlistCount(reply) >= 0 ==> db.rows == old(db.rows) + [SteamMetric(now, GetWishlistCount(reply))]
      ensures GetWishlistCount(reply) < 0 ==> db.rows == old(db.rows)
    {
      var count := GetWishlistCount(reply);
      if count >= 0 {
        db.SaveMetric(SteamMetric(now, count));
      }
      result := map["wishlist_count" := count];
    }
  }
}

=== FILE: visualizer.dfy ===
/**
 * The analyser's integer aggregates over the metrics table: the summary
 * report (Steam wishlist growth, YouTube views, Reddit and Twitter
 * metadata totals) and the YouTube views grouped by calendar day with
 * their running total. The table is read back as a sequence of rows in
 * timestamp order; pandas filters, sums and group-bys become functions
 * over that sequence.
 */
module Visualizer {
  import opened Optional
  import opened Seqs
  import opened Text

  const SecondsPerDay := 86400

  /**
   * A row of the `metrics` table as the analyser reads it. `timestamp` is in
   * seconds; `metadata` is the decoded JSON object of integer fields, `None`
   * when the column is empty.
   */
  datatype MetricRow = MetricRow(timestamp: int, platform: string, metricType: string, value: int,
                                 metadata: Option<map<string, int>>)

  predicate Matches(m: MetricRow, platform: string, metricType: string) {
    m.platform == platform && m.metricType == metricType
  }

  // ---------------------------------------------------------------------------
  // Filters and sums

  /** `df[(df['platform'] == platform) & (df['metric_type'] == metricType)]`: the matching rows, in table order. */
  function Select(rows: seq<MetricRow>, platform: string, metricType: string): (sel: seq<MetricRow>)
    ensures |sel| <= |rows|
    ensures forall i :: 0 <= i < |sel| ==> Matches(sel[i], platform, metricType)
  {
    if rows == [] then []
    else if Matches(rows[0], platform, metricType) then [rows[0]] + Select(rows[1..], platform, metricType)
    else Select(rows[1..], platform, metricType)
  }

  /** The filter keeps exactly the matching rows. */
  lemma {:induction false} SelectMembers(rows: seq<MetricRow>, platform: string, metricType: string)
    ensures forall m :: m in Select(rows, platform, metricType) <==> m in rows && Matches(m, platform, metricType)
  {
    if rows != [] {
      SelectMembers(rows[1..], platform, metricType);
      ConsTail(rows);
    }
  }

  /** An empty filter means that no row matches. */
  lemma {:induction false} SelectNone(rows: seq<MetricRow>, platform: string, metricType: string)
    requires Select(rows, platform, metricType) == []
    ensures forall i :: 0 <= i < |rows| ==> !Matches(rows[i], platform, metricType)
  {
    if rows != [] {
      SelectNone(rows[1..], platform, metricType);
      forall i | 0 < i < |rows|
        ensures !Matches(rows[i], platform, metricType)
      {
        assert rows[i] == rows[1..][i - 1];
      }
    }
  }

  /** A filter is empty exactly when no row matches, which decides whether a platform enters the report. */
  lemma SelectNonEmpty(rows: seq<MetricRow>, platform: string, metricType: string)
    ensures Select(rows, platform, metricType) != [] <==> exists i :: 0 <= i < |rows| && Matches(rows[i], platform, metricType)
  {
    var sel := Select(rows, platform, metricType);
    if sel != [] {
      SelectMembers(rows, platform, metricType);
      assert sel[0] in rows;
    } else {
      SelectNone(rows, platform, metricType);
    }
  }

  /** `iloc[0]` of a filter is the first matching row of the table. */
  lemma {:induction false} SelectFirst(rows: seq<MetricRow>, platform: string, metricType: string)
    requires Select(rows, platform, metricType) != []
    ensures exists i :: 0 <= i < |rows| && rows[i] == Select(rows, platform, metricType)[0] &&
                        forall j :: 0 <= j < i ==> !Matches(rows[j], platform, metricType)
  {
    if !Matches(rows[0], platform, metricType) {
      SelectFirst(rows[1..], platform, metricType);
      var i :| 0 <= i < |rows[1..]| && rows[1..][i] == Select(rows[1..], platform, metricType)[0] &&
               forall j :: 0 <= j < i ==> !Matches(rows[1..][j], platform, metricType);
      assert rows[i + 1] == Select(rows, platform, metricType)[0];
      forall j | 0 <= j < i + 1
        ensures !Matches(rows[j], platform, metricType)
      {
        if j > 0 {
          assert rows[j] == rows[1..][j - 1];
        }
      }
    }
  }

  /** `iloc[-1]` of a filter is the last matching row of the table. */
  lemma {:induction false} SelectLast(rows: seq<MetricRow>, platform: string, metricType: string)
    requires Select(rows, platform, metricType) != []
    ensures var sel := Select(rows, platform, metricType);
            exists i :: 0 <= i < |rows| && rows[i] == sel[|sel| - 1] &&
                        forall j :: i < j < |rows| ==> !Matches(rows[j], platform, metricType)
  {
    var sel := Select(rows, platform, metricType);
    var rest := Select(rows[1..], platform, metricType);
    if rest == [] {
      SelectNone(rows[1..], platform, metricType);
      assert sel[|sel| - 1] == rows[0];
      forall j | 0 < j < |rows|
        ensures !Matches(rows[j], platform, metricType)
      {
        assert rows[j] == rows[1..][j - 1];
      }
    } else {
      SelectLast(rows[1..], platform, metricType);
      var i :| 0 <= i < |rows[1..]| && rows[1..][i] == rest[|rest| - 1] &&
               forall j :: i < j < |rows[1..]| ==> !Matches(rows[1..][j], platform, metricType);
      assert sel[|sel| - 1] == rest[|rest| - 1];
      assert rows[i + 1] == rows[1..][i];
      forall j | i + 1 < j < |rows|
        ensures !Matches(rows[j], platform, metricType)
      {
        assert rows[j] == rows[1..][j - 1];
      }
    }
  }

  /** `df['value'].sum()`. */
  function SumValues(rows: seq<MetricRow>): int {
    if rows == [] then 0 else rows[0].value + SumValues(rows[1..])
  }

  lemma SumValuesCons(r: MetricRow, rows: seq<MetricRow>)
    ensures SumValues([r] + rows) == r.value + SumValues(rows)
  {
    ConsRest(r, rows);
  }

  /** The sum of a sequence of integers. */
  function SumInts(xs: seq<int>): int {
    if xs == [] then 0 else xs[0] + SumInts(xs[1..])
  }

  lemma SumIntsCons(x: int, xs: seq<int>)
    ensures SumInts([x] + xs) == x + SumInts(xs)
  {
    ConsRest(x, xs);
  }

  /** The `value` column. */
  function Values(rows: seq<MetricRow>): (vs: seq<int>)
    ensures |vs| == |rows|
    ensures forall i :: 0 <= i < |rows| ==> vs[i] == rows[i].value
  {
    if rows == [] then [] else [rows[0].value] + Values(rows[1..])
  }

  /** Summing the column is summing the values. */
  lemma {:induction false} SumOfValues(rows: seq<MetricRow>)
    ensures SumInts(Values(rows)) == SumValues(rows)
  {
    if rows != [] {
      SumOfValues(rows[1..]);
      SumIntsCons(rows[0].value, Values(rows[1..]));
    }
  }

  // ---------------------------------------------------------------------------
  // Steam

  datatype SteamSummary = SteamSummary(currentWishlist: int, growth: int, growthRate: real)

  /** Lines 255-262 over the Steam wishlist rows: the latest value, its change since the first row, and that change in percent. */
  function SteamSummaryOf(steam: seq<MetricRow>): (s: SteamSummary)
    requires steam != []
    ensures s.currentWishlist == steam[|steam| - 1].value
    ensures s.currentWishlist == steam[0].value + s.growth
    ensures |steam| == 1 || steam[0].value <= 0 ==> s.growthRate == 0.0
    ensures steam[0].value > 0 ==> (s.growthRate > 0.0 <==> s.growth > 0) && (s.growthRate < 0.0 <==> s.growth < 0)
  {
    var latest := steam[|steam| - 1].value;
    if |steam| > 1 then
      var prev := steam[0].value;
      var growth := latest - prev;
      SteamSummary(latest, growth, if prev > 0 then Percent(growth, prev) else 0.0)
    else SteamSummary(latest, 0, 0.0)
  }

  /** `growth / prev * 100` in exact arithmetic; it has the sign of `growth`. */
  function Percent(growth: int, prev: int): (p: real)
    requires prev > 0
    ensures p > 0.0 <==> growth > 0
    ensures p < 0.0 <==> growth < 0
    ensures p * (prev as real) == (growth as real) * 100.0
  {
    (growth as real) / (prev as real) * 100.0
  }

  /** The changes from each value to the next. */
  function Steps(xs: seq<int>): (d: seq<int>)
    ensures |d| == if |xs| < 2 then 0 else |xs| - 1
  {
    if |xs| < 2 then [] else [xs[1] - xs[0]] + Steps(xs[1..])
  }

  /** The changes between consecutive values add up to the last value minus the first. */
  lemma {:induction false} StepsTelescope(xs: seq<int>)
    requires xs != []
    ensures SumInts(Steps(xs)) == xs[|xs| - 1] - xs[0]
  {
    if |xs| >= 2 {
      StepsTelescope(xs[1..]);
      SumIntsCons(xs[1] - xs[0], Steps(xs[1..]));
    }
  }

  /** The reported growth is the sum of the row-to-row changes of the wishlist. */
  lemma SteamGrowthIsSumOfChanges(steam: seq<MetricRow>)
    requires steam != []
    ensures SteamSummaryOf(steam).growth == SumInts(Steps(Values(steam)))
  {
    StepsTelescope(Values(steam));
  }

  // ---------------------------------------------------------------------------
  // YouTube

  datatype YouTubeSummary = YouTubeSummary(totalViews: int, avgDailyViews: int, videosTracked: nat)

  /** `int(a / b)` for a positive `b`: the quotient rounded toward zero. */
  function TruncDiv(a: int, b: int): (q: int)
    requires b > 0
    ensures a >= 0 ==> 0 <= q && b * q <= a < b * q + b
    ensures a < 0 ==> q <= 0 && b * q - b < a <= b * q
  {
    if a >= 0 then a / b else -((-a) / b)
  }

  /** Lines 273-279 over the YouTube daily-views rows. */
  function YouTubeSummaryOf(yt: seq<MetricRow>): (s: YouTubeSummary)
    requires yt != []
    ensures s.totalViews == SumInts(Values(yt)) && s.videosTracked == |yt|
    ensures s.totalViews >= 0 ==> s.videosTracked * s.avgDailyViews <= s.totalViews < s.videosTracked * (s.avgDailyViews + 1)
  {
    SumOfValues(yt);
    var total := SumValues(yt);
    YouTubeSummary(total, TruncDiv(total, |yt|), |yt|)
  }

  // ---------------------------------------------------------------------------
  // Reddit and Twitter

  datatype MentionSummary = MentionSummary(totalMentions: int, firstTotal: int, secondTotal: int)

  /** `meta.get(key, 0)`. */
  function MetaGet(meta: map<string, int>, key: string): (v: int)
    ensures key !in meta ==> v == 0
    ensures key in meta ==> v == meta[key]
  {
    if key in meta then meta[key] else 0
  }

  /** What one row adds to a metadata total: nothing when its metadata is empty. */
  function RowMeta(r: MetricRow, key: string): int {
    match r.metadata
    case None => 0
    case Some(meta) => MetaGet(meta, key)
  }

  /** The metadata total of `key` over the rows, row after row. */
  function MetaSum(rows: seq<MetricRow>, key: string): int {
    if rows == [] then 0 else MetaSum(rows[..|rows| - 1], key) + RowMeta(rows[|rows| - 1], key)
  }

  /** Rows whose metadata is empty or lacks the key add nothing. */
  lemma {:induction false} MetaSumMissingKey(rows: seq<MetricRow>, key: string)
    requires forall i :: 0 <= i < |rows| ==> rows[i].metadata.None? || key !in rows[i].metadata.value
    ensures MetaSum(rows, key) == 0
  {
    if rows != [] {
      MetaSumMissingKey(rows[..|rows| - 1], key);
    }
  }

  /** With no negative entry under the key, the total is at least each row's own entry. */
  lemma {:induction false} MetaSumBounds(rows: seq<MetricRow>, key: string, i: nat)
    requires forall j :: 0 <= j < |rows| ==> RowMeta(rows[j], key) >= 0
    requires i < |rows|
    ensures MetaSum(rows, key) >= RowMeta(rows[i], key) >= 0
  {
    if i < |rows| - 1 {
      MetaSumBounds(rows[..|rows| - 1], key, i);
    } else {
      MetaSumNonNegative(rows[..|rows| - 1], key);
    }
  }

  lemma {:induction false} MetaSumNonNegative(rows: seq<MetricRow>, key: string)
    requires forall j :: 0 <= j < |rows| ==> RowMeta(rows[j], key) >= 0
    ensures MetaSum(rows, key) >= 0
  {
    if rows != [] {
      MetaSumNonNegative(rows[..|rows| - 1], key);
    }
  }

  /** Lines 288-294 and 307-313: the two accumulators of a loop over the rows. */
  method MetadataTotals(rows: seq<MetricRow>, key1: string, key2: string) returns (total1: int, total2: int)
    ensures total1 == MetaSum(rows, key1) && total2 == MetaSum(rows, key2)
  {
    total1, total2 := 0, 0;
    for i := 0 to |rows|
      invariant total1 == MetaSum(rows[..i], key1) && total2 == MetaSum(rows[..i], key2)
    {
      TakeSnoc(rows, i);
      assert (rows[..i] + [rows[i]])[..i] == rows[..i];
      match rows[i].metadata {
        case Some(meta) =>
          total1 := total1 + MetaGet(meta, key1);
          total2 := total2 + MetaGet(meta, key2);
        case None =>
      }
    }
    TakeAll(rows);
  }

  // ---------------------------------------------------------------------------
  // The report

  datatype Report = Report(period: string, generatedAt: string, steam: Option<SteamSummary>,
                           youtube: Option<YouTubeSummary>, reddit: Option<MentionSummary>, twitter: Option<MentionSummary>)

  function SteamRows(rows: seq<MetricRow>): seq<MetricRow> { Select(rows, "Steam", "wishlist") }
  function YouTubeRows(rows: seq<MetricRow>): seq<MetricRow> { Select(rows, "YouTube", "daily_views") }
  function RedditRows(rows: seq<MetricRow>): seq<MetricRow> { Select(rows, "Reddit", "daily_mentions") }
  function TwitterRows(rows: seq<MetricRow>): seq<MetricRow> { Select(rows, "Twitter", "daily_mentions") }

  function Period(days: int): string {
    "Last " + IntToString(days) + " days"
  }

  /** The mention total of a platform's rows and its two metadata totals. */
  function MentionSummaryOf(sel: seq<MetricRow>, key1: string, key2: string): MentionSummary {
    MentionSummary(SumValues(sel), MetaSum(sel, key1), MetaSum(sel, key2))
  }

  /** `generate_summary_report` on the rows of the period; a platform enters only when it has rows. */
  function SummaryReport(rows: seq<MetricRow>, days: int, generatedAt: string): (r: Report)
    ensures r.period == Period(days) && r.generatedAt == generatedAt
  {
    var steam := SteamRows(rows);
    var yt := YouTubeRows(rows);
    var reddit := RedditRows(rows);
    var twitter := TwitterRows(rows);
    Report(Period(days), generatedAt,
           if steam == [] then None else Some(SteamSummaryOf(steam)),
           if yt == [] then None else Some(YouTubeSummaryOf(yt)),
           if reddit == [] then None else Some(MentionSummaryOf(reddit, "upvotes", "comments")),
           if twitter == [] then None else Some(MentionSummaryOf(twitter, "likes", "retweets")))
  }

  /** Lines 246-321: the report dictionary filled in platform by platform. */
  method GenerateSummaryReport(rows: seq<MetricRow>, days: int, generatedAt: string) returns (report: Report)
    ensures report == SummaryReport(rows, days, generatedAt)
  {
    report := Report(Period(days), generatedAt, None, None, None, None);
    var steam := SteamRows(rows);
    if steam != [] {
      report := report.(steam := Some(SteamSummaryOf(steam)));
    }
    var yt := YouTubeRows(rows);
    if yt != [] {
      report := report.(youtube := Some(YouTubeSummaryOf(yt)));
    }
    var reddit := RedditRows(rows);
    if reddit != [] {
      var upvotes, comments := MetadataTotals(reddit, "upvotes", "comments");
      report := report.(reddit := Some(MentionSummary(SumValues(reddit), upvotes, comments)));
    }
    var twitter := TwitterRows(rows);
    if twitter != [] {
      var likes, retweets := MetadataTotals(twitter, "likes", "retweets");
      report := report.(twitter := Some(MentionSummary(SumValues(twitter), likes, retweets)));
    }
  }

  /** A platform key is in the report exactly when some row of its platform and metric type exists. */
  lemma ReportPlatforms(rows: seq<MetricRow>, days: int, generatedAt: string)
    ensures var r := SummaryReport(rows, days, generatedAt);
            (r.steam.Some? <==> exists i :: 0 <= i < |rows| && Matches(rows[i], "Steam", "wishlist")) &&
            (r.youtube.Some? <==> exists i :: 0 <= i < |rows| && Matches(rows[i], "YouTube", "daily_views")) &&
            (r.reddit.Some? <==> exists i :: 0 <= i < |rows| && Matches(rows[i], "Reddit", "daily_mentions")) &&
            (r.twitter.Some? <==> exists i :: 0 <= i < |rows| && Matches(rows[i], "Twitter", "daily_mentions"))
  {
    SelectNonEmpty(rows, "Steam", "wishlist");
    SelectNonEmpty(rows, "YouTube", "daily_views");
    SelectNonEmpty(rows, "Reddit", "daily_mentions");
    SelectNonEmpty(rows, "Twitter", "daily_mentions");
  }

  /**
   * The Steam entry: the current wishlist is the value of the last Steam
   * wishlist row of the table, and the growth is measured from the first.
   */
  lemma ReportSteam(rows: seq<MetricRow>, days: int, generatedAt: string)
    requires SummaryReport(rows, days, generatedAt).steam.Some?
    ensures var s := SummaryReport(rows, days, generatedAt).steam.value;
            (exists i :: 0 <= i < |rows| && Matches(rows[i], "Steam", "wishlist") && rows[i].value == s.currentWishlist &&
                         forall j :: i < j < |rows| ==> !Matches(rows[j], "Steam", "wishlist")) &&
            (exists i :: 0 <= i < |rows| && Matches(rows[i], "Steam", "wishlist") && rows[i].value + s.growth == s.currentWishlist &&
                         forall j :: 0 <= j < i ==> !Matches(rows[j], "Steam", "wishlist"))
  {
    var steam := SteamRows(rows);
    SelectLast(rows, "Steam", "wishlist");
    SelectFirst(rows, "Steam", "wishlist");
    assert steam[0] in steam && steam[|steam| - 1] in steam;
  }

  /** The YouTube entry counts the matching rows and sums their values. */
  lemma ReportYouTube(rows: seq<MetricRow>, days: int, generatedAt: string)
    requires SummaryReport(rows, days, generatedAt).youtube.Some?
    ensures var y := SummaryReport(rows, days, generatedAt).youtube.value;
            y.videosTracked == |YouTubeRows(rows)| <= |rows| && y.totalViews == SumValues(YouTubeRows(rows))
  {
    SumOfValues(YouTubeRows(rows));
  }

  /** A row that carries none of the four engagement counts: no metadata, or metadata without those keys. */
  predicate NoEngagementCounts(m: MetricRow) {
    m.metadata.None? ||
    ("upvotes" !in m.metadata.value && "comments" !in m.metadata.value &&
     "likes" !in m.metadata.value && "retweets" !in m.metadata.value)
  }

  /** Rows without engagement counts give Reddit and Twitter metadata totals of 0. */
  lemma ReportMentions(rows: seq<MetricRow>, days: int, generatedAt: string)
    requires forall i :: 0 <= i < |rows| ==> NoEngagementCounts(rows[i])
    ensures var r := SummaryReport(rows, days, generatedAt);
            (r.reddit.Some? ==> r.reddit.value.firstTotal == 0 && r.reddit.value.secondTotal == 0) &&
            (r.twitter.Some? ==> r.twitter.value.firstTotal == 0 && r.twitter.value.secondTotal == 0)
  {
    var reddit := RedditRows(rows);
    var twitter := TwitterRows(rows);
    SelectMembers(rows, "Reddit", "daily_mentions");
    SelectMembers(rows, "Twitter", "daily_mentions");
    assert forall i :: 0 <= i < |reddit| ==> reddit[i] in rows;
    assert forall i :: 0 <= i < |twitter| ==> twitter[i] in rows;
    MetaSumMissingKey(reddit, "upvotes");
    MetaSumMissingKey(reddit, "comments");
    MetaSumMissingKey(twitter, "likes");
    MetaSumMissingKey(twitter, "retweets");
  }

  // ---------------------------------------------------------------------------
  // Daily views and their running total

  /** `.dt.date` of a timestamp: its day number since the epoch. */
  function DayOf(ts: int): int {
    ts / SecondsPerDay
  }

  /** The rows of one day, in table order. */
  function OnDay(rows: seq<MetricRow>, day: int): (sel: seq<MetricRow>)
    ensures |sel| <= |rows|
    ensures forall m :: m in sel ==> m in rows && DayOf(m.timestamp) == day
    ensures forall i :: 0 <= i < |rows| && DayOf(rows[i].timestamp) == day ==> rows[i] in sel
  {
    if rows == [] then []
    else
      var rest := OnDay(rows[1..], day);
      assert forall i :: 0 < i < |rows| ==> rows[i] == rows[1..][i - 1];
      if DayOf(rows[0].timestamp) == day then [rows[0]] + rest else rest
  }

  predicate Increasing(ds: seq<int>) {
    forall i, j :: 0 <= i < j < |ds| ==> ds[i] < ds[j]
  }

  /** Adds a day to an increasing list of days, keeping it increasing and without repeats. */
  function InsertDay(d: int, ds: seq<int>): (r: seq<int>)
    requires Increasing(ds)
    ensures Increasing(r)
    ensures forall x :: x in r <==> x == d || x in ds
  {
    if ds == [] then [d]
    else if d < ds[0] then [d] + ds
    else if d == ds[0] then ds
    else
      var rest := InsertDay(d, ds[1..]);
      IncreasingTail(ds);
      IncreasingCons(ds[0], rest);
      [ds[0]] + rest
  }

  lemma IncreasingTail(ds: seq<int>)
    requires Increasing(ds) && ds != []
    ensures Increasing(ds[1..])
    ensures forall x :: x in ds[1..] ==> ds[0] < x
  {
    forall x | x in ds[1..]
      ensures ds[0] < x
    {
      var i :| 0 <= i < |ds[1..]| && ds[1..][i] == x;
      assert ds[i + 1] == x;
    }
  }

  lemma IncreasingCons(x: int, ds: seq<int>)
    requires Increasing(ds)
    requires forall y :: y in ds ==> x < y
    ensures Increasing([x] + ds)
  {
    forall i, j | 0 <= i < j < |[x] + ds|
      ensures ([x] + ds)[i] < ([x] + ds)[j]
    {
      assert ([x] + ds)[j] == ds[j - 1];
      if i > 0 {
        assert ([x] + ds)[i] == ds[i - 1];
      } else {
        assert ds[j - 1] in ds;
      }
    }
  }

  /** The group keys of `groupby('date')`: every day that has a row, in increasing order. */
  function Dates(rows: seq<MetricRow>): (ds: seq<int>)
    ensures Increasing(ds)
    ensures forall d :: d in ds <==> exists i :: 0 <= i < |rows| && DayOf(rows[i].timestamp) == d
  {
    if rows == [] then []
    else
      var ds := InsertDay(DayOf(rows[0].timestamp), Dates(rows[1..]));
      assert forall i :: 0 < i < |rows| ==> rows[i] == rows[1..][i - 1];
      assert forall i :: 0 <= i < |rows| - 1 ==> rows[1..][i] == rows[i + 1];
      ds
  }

  /** `groupby('date')['value'].sum()` over the given days. */
  function DayTotals(rows: seq<MetricRow>, ds: seq<int>): (ts: seq<int>)
    ensures |ts| == |ds|
    ensures forall i :: 0 <= i < |ds| ==> ts[i] == SumValues(OnDay(rows, ds[i]))
  {
    if ds == [] then [] else [SumValues(OnDay(rows, ds[0]))] + DayTotals(rows, ds[1..])
  }

  /** Line 101: the YouTube daily views, one total per day of the YouTube rows' `Dates`. */
  function DailyViews(rows: seq<MetricRow>): seq<int> {
    DayTotals(YouTubeRows(rows), Dates(YouTubeRows(rows)))
  }

  /** Over days without any row, every total is 0. */
  lemma {:induction false} DayTotalsOfNothing(ds: seq<int>)
    ensures SumInts(DayTotals([], ds)) == 0
  {
    if ds != [] {
      DayTotalsOfNothing(ds[1..]);
      SumIntsCons(0, DayTotals([], ds[1..]));
    }
  }

  /** The first row adds its value to the total of its own day, which occurs once among increasing days. */
  lemma {:induction false} DayTotalsOfFirstRow(rows: seq<MetricRow>, ds: seq<int>)
    requires rows != [] && Increasing(ds)
    ensures SumInts(DayTotals(rows, ds)) ==
            (if DayOf(rows[0].timestamp) in ds then rows[0].value else 0) + SumInts(DayTotals(rows[1..], ds))
  {
    if ds != [] {
      var d := DayOf(rows[0].timestamp);
      DayTotalsOfFirstRow(rows, ds[1..]);
      SumIntsCons(SumValues(OnDay(rows, ds[0])), DayTotals(rows, ds[1..]));
      SumIntsCons(SumValues(OnDay(rows[1..], ds[0])), DayTotals(rows[1..], ds[1..]));
      if d == ds[0] {
        SumValuesCons(rows[0], OnDay(rows[1..], ds[0]));
        assert d !in ds[1..];
      } else {
        assert d in ds <==> d in ds[1..];
      }
    }
  }

  /** Grouping by day loses nothing: when every row's day is listed once, the daily totals add up to the whole sum. */
  lemma {:induction false} DayTotalsSum(rows: seq<MetricRow>, ds: seq<int>)
    requires Increasing(ds)
    requires forall i :: 0 <= i < |rows| ==> DayOf(rows[i].timestamp) in ds
    ensures SumInts(DayTotals(rows, ds)) == SumValues(rows)
    decreases |rows|
  {
    if rows == [] {
      DayTotalsOfNothing(ds);
    } else {
      assert forall i :: 0 <= i < |rows[1..]| ==> rows[1..][i] == rows[i + 1];
      DayTotalsSum(rows[1..], ds);
      DayTotalsOfFirstRow(rows, ds);
    }
  }

  /** The running sums of `xs` starting from `acc`. */
  function Running(xs: seq<int>, acc: int): (cs: seq<int>)
    ensures |cs| == |xs|
  {
    if xs == [] then [] else [acc + xs[0]] + Running(xs[1..], acc + xs[0])
  }

  /** Line 115, `cumsum()`: element `i` is the sum of the first `i + 1` values. */
  function Cumsum(xs: seq<int>): (cs: seq<int>)
    ensures |cs| == |xs|
    ensures forall i :: 0 <= i < |xs| ==> cs[i] == SumInts(xs[..i + 1])
  {
    forall i | 0 <= i < |xs|
      ensures Running(xs, 0)[i] == SumInts(xs[..i + 1])
    {
      RunningPrefix(xs, 0, i);
    }
    Running(xs, 0)
  }

  lemma {:induction false} RunningPrefix(xs: seq<int>, acc: int, i: nat)
    requires i < |xs|
    ensures Running(xs, acc)[i] == acc + SumInts(xs[..i + 1])
  {
    SumIntsCons(xs[0], xs[1..][..i]);
    assert xs[..i + 1] == [xs[0]] + xs[1..][..i];
    if i > 0 {
      RunningPrefix(xs[1..], acc + xs[0], i - 1);
    } else {
      assert xs[1..][..0] == [];
    }
  }

  /** The last running total is the sum of all values. */
  lemma CumsumLast(xs: seq<int>)
    requires xs != []
    ensures Cumsum(xs)[|xs| - 1] == SumInts(xs)
  {
    TakeAll(xs);
  }

  /**
   * The cumulative series ends at the YouTube total: the sum over all days
   * of the daily views, which is also the report's `total_views`.
   */
  lemma CumulativeViewsTotal(rows: seq<MetricRow>, days: int, generatedAt: string)
    requires DailyViews(rows) != []
    ensures var cs := Cumsum(DailyViews(rows));
            cs[|cs| - 1] == SumValues(YouTubeRows(rows))
    ensures var r := SummaryReport(rows, days, generatedAt);
            r.youtube.Some? && Cumsum(DailyViews(rows))[|DailyViews(rows)| - 1] == r.youtube.value.totalViews
  {
    var yt := YouTubeRows(rows);
    DayTotalsSum(yt, Dates(yt));
    CumsumLast(DailyViews(rows));
    SumOfValues(yt);
  }
}
